=== FILE: README.md ===
# Filtered directory walk and export engine of code-compilers-pythonGUI

`code-compilers-pythonGUI.py` is a small Tkinter application with four
buttons. Each button runs the same engine in a different mode:

- **Get All Extensions** (the survey) walks a root directory and skips
  excluded directories. It counts every file and keeps, for each
  lower-cased extension, the first three relative paths it meets.
- **Compile Sources** (the compiler) walks the same way and also drops
  files whose extension is excluded. For every file it keeps, it writes a
  block: `--- RELATIVE PATH: p ---\n`, then the file's text and `\n\n`,
  or `ERROR READING FILE: message\n\n`.
- **Export Paths** (the path exporter) walks the same way and writes
  every file's normalised relative path on its own line.
- **Export Selected Files** (the selective exporter) reads a list of
  relative paths, one per line. Each path becomes a SKIPPED block, a text
  block, or an error block that names the path. Two counters record
  successes and errors.

This project models that engine in Dafny as pure functions over an
abstract directory tree. Each mode's loop is modelled as a method. The
contracts and lemmas cover path normalisation, parsing of the exclusion
lists, the directory-exclusion rule, and pruning during the walk. They
also cover the blocks each exporter writes and the counters it keeps.

Modules, one per file:

| file | module | what it holds |
|---|---|---|
| text.dfy | `Text` | The Python `str` operations used: `strip`, `lstrip`, `lower`, `replace`, `split(',')`, `splitlines`. |
| paths.dfy | `Paths` | `normalize_path`, `os.path.join` of a directory and a name, `os.path.splitext(...)[1]`. |
| exclusions.dfy | `Exclusions` | `_parse_exclusions` in both modes; the directory and extension exclusion rules. |
| tree.dfy | `Tree` | The abstract tree; the top-down `os.walk` with pruning before descent and the check on arrival; a reference enumeration of all files; the pruning theorems. |
| output.dfy | `Output` | The `--- RELATIVE PATH: p ---` header; block concatenation. |
| survey.dfy | `Survey` | `_compiler_get_all_extensions`. |
| compiler.dfy | `Compiler` | `_compiler_compile_sources`. |
| path_export.dfy | `PathExport` | `_path_exporter_export_paths`. |
| selective.dfy | `Selective` | `_selective_exporter_export_files`. |

How the environment is modelled:

- **The tree and walk order.** The directory tree is a `Node` value. Its
  files and subdirectories are sequences in listing order, which stands
  in for the order `os.walk` uses.
- **The relative path.** The walk carries `os.path.relpath` of each
  directory as a raw string, `.` for the root. This is the value the
  source normalises on arrival. Subdirectories are tested against
  `normalize_path(join(current, name))`, as in the source.
- **File contents.** Reading a file is per-file data, `ReadOutcome`. It
  is either the text or the message of the exception the read raised.
- **The selective exporter's files.** It looks paths up in a
  `map<string, ReadOutcome>`. A path is a key exactly when
  `os.path.isfile(join(root, path))` holds.
- **Outputs.** Output files are returned as strings, together with the
  counters.

Two facts about the walk are proved rather than assumed:

1. **The arrival check is redundant for ordinary names.** The source
   checks each directory again when the walk reaches it. In a tree whose
   names contain no `/` and no `\` and are not `.`, that check never
   fires (`Tree.RecheckNeverFires`).
2. **It can fire when a name contains `\`.** A directory named `a\`, on a
   system that allows the name, is enough. Its subdirectory `b` is
   admitted as `a/b`, but on arrival its path is `a//b`
   (`Tree.RecheckFiresOnBackslashName`). Names with `\` also defeat the
   exclusion rule itself: a root file `x\y` is exported as `x/y` even
   with `x` excluded (`Tree.BackslashFileEscapesExclusion`), and
   excluding `a/b` prunes a subtree whose files sit under `a//b`
   (`Tree.PruningHidesBackslashSubtree`).

The selective exporter has a branch for "No valid file paths found after
processing input". That branch cannot be reached, because every character
at which `splitlines` ends a line is also whitespace for `strip`
(`Selective.NoValidPathsUnreachable`).

## Model

| member | source | states |
|---|---|---|
| Paths.Normalize | code-compilers-pythonGUI.py:7-9 | The result holds no backslash and has no slash at either end, and is never longer than the input; `Paths.NormalizeKeepsMiddle` states what it keeps. |
| Paths.NormalizeKeepsMiddle | code-compilers-pythonGUI.py:7-9 | Normalising cuts only slashes and backslashes, a run from the front and a run from the back. What remains is the input's middle with each backslash turned into a slash and every other character kept in place. |
| Paths.NormalizeFixedPoint | code-compilers-pythonGUI.py:7-9 | A path is left unchanged by normalisation exactly when it has no backslash and no slash at either end. |
| Paths.NormalizeIdempotent | code-compilers-pythonGUI.py:7-9 | Normalising twice gives the same path as normalising once. |
| Paths.NormalizeSurroundingSeparator | code-compilers-pythonGUI.py:7-9 | A leading or trailing `/` or `\` does not change the normalised path. |
| Paths.Join | code-compilers-pythonGUI.py:181 | Joining to the root `""` gives the name itself; otherwise the directory, a `/` and then exactly the name. |
| Paths.LastDot | code-compilers-pythonGUI.py:182 | Gives the position of a dot after which no dot follows, or -1 when the name has no dot. |
| Paths.Extension | code-compilers-pythonGUI.py:182 | `splitext`'s suffix is non-empty exactly when some dot has a non-dot before it. It is then a dot followed by dot-free text, at the end of the name, with a non-dot character in front of it. |
| Paths.ExtensionKey | code-compilers-pythonGUI.py:182-183 | The key a file name is surveyed and filtered under (also lines 237-238): as long as `splitext`'s suffix, and empty exactly when that suffix is. `Paths.ExtensionKeyShape` gives its form. |
| Paths.ExtensionKeyShape | code-compilers-pythonGUI.py:182-183 | A non-empty key is a dot followed by dot-free text, as the suffix it lower-cases is. |
| Text.Lower | code-compilers-pythonGUI.py:183 | Lower-casing keeps the length and maps every character on its own. |
| Text.Replace | code-compilers-pythonGUI.py:9 | Every occurrence of the replaced character, and only those, is changed; none is left. |
| Text.TrimLeft | code-compilers-pythonGUI.py:65 | The result is a suffix of the input. Every dropped character is droppable, and the result does not start with one. |
| Text.TrimRight | code-compilers-pythonGUI.py:9 | The result is a prefix of the input. Every dropped character is droppable, and the result does not end with one. |
| Text.Trim | code-compilers-pythonGUI.py:65 | The result neither starts nor ends with a droppable character. It is empty only when every character of the input was droppable. |
| Text.TrimIsSlice | code-compilers-pythonGUI.py:65 | What `strip` keeps is a contiguous run of the input, starting where `lstrip` stopped. Only droppable characters lie before it and after it. |
| Text.Split | code-compilers-pythonGUI.py:63 | `split(',')` gives at least one piece, no piece holds a comma, and joining the pieces with commas gives back the input. |
| Text.SplitAppend | code-compilers-pythonGUI.py:63 | Splitting `a + sep + b` gives the pieces of `a` followed by the pieces of `b`. |
| Text.SplitLines | code-compilers-pythonGUI.py:322 | No line holds a line-break character; the text is empty exactly when there are no lines. The three lemmas below fix the order. |
| Text.SplitLinesSingle | code-compilers-pythonGUI.py:322 | Non-empty text without a line break is one line, itself. |
| Text.SplitLinesBreak | code-compilers-pythonGUI.py:322 | The text before the first one-character break is the first line; the lines of the rest follow in order. |
| Text.SplitLinesCrLf | code-compilers-pythonGUI.py:322 | A `\r\n` pair is one break: the text before it is the first line, and the lines of the rest follow. |
| Text.SplitLinesKeeps | code-compilers-pythonGUI.py:322 | Every character that does not end a line lands in some line. |
| Text.StripEmptyAllSpace | code-compilers-pythonGUI.py:316 | Text that `strip()` empties is made of whitespace only. |
| Text.IsSpace | code-compilers-pythonGUI.py:65-67 | The characters Python's `str.isspace()` accepts, which `strip()` removes. |
| Text.IsLineBreak | code-compilers-pythonGUI.py:322 | The characters at which `str.splitlines()` ends a line. `Text.LineBreakIsSpace` shows each is also whitespace. |
| Text.LineBreakIsSpace | code-compilers-pythonGUI.py:322 | Every character at which `splitlines()` ends a line is whitespace for `strip()`. |
| Text.Strip | code-compilers-pythonGUI.py:65-67 | `strip()` with no argument: `Trim` with the whitespace set. |
| Text.StartsWith | code-compilers-pythonGUI.py:170 | `str.startswith`, the test the directory rule uses; `Text.StartsWithIff` characterises it. |
| Text.StartsWithIff | code-compilers-pythonGUI.py:170 | A prefix followed by any text starts with that prefix, and a text that starts with a prefix is that prefix followed by the rest of the text. |
| Exclusions.ExtensionEntry | code-compilers-pythonGUI.py:65 | An extension entry is one dot followed by text that is lower-case and does not start with a dot. The lemmas below relate the spellings a user may type. |
| Exclusions.ExtensionEntryDotted | code-compilers-pythonGUI.py:65 | For an entry that does not start with whitespace, putting a dot in front gives the same extension. |
| Exclusions.ExtensionEntryUpper | code-compilers-pythonGUI.py:65 | Upper-casing an entry gives the same extension. |
| Exclusions.ExtensionSpellingsAgree | code-compilers-pythonGUI.py:62-65 | A one-entry list that does not start with whitespace parses to the same set as its dotted and its upper-cased spelling. |
| Exclusions.EntryOfExtension | code-compilers-pythonGUI.py:65 | An extension as `splitext` returns it, unless it ends in whitespace, parses to its lower-cased self, which is the key the compiler uses. |
| Exclusions.ExcludingOwnExtension | code-compilers-pythonGUI.py:62-65 | Listing a file's own extension excludes the file, and so does listing it without its dot or upper-cased. This needs the extension not to end in whitespace or hold a comma. |
| Exclusions.DotLower | code-compilers-pythonGUI.py:65 | The entry is a dot followed, character by character, by the lower-cased text. It therefore has a single leading dot and no upper-case letter. |
| Exclusions.DirEntry | code-compilers-pythonGUI.py:67 | A directory entry is in normal form. |
| Exclusions.DirEntryOfNormal | code-compilers-pythonGUI.py:67 | A path already in normal form, with no whitespace at either end, is its own entry. |
| Exclusions.ParseSingleNormalDir | code-compilers-pythonGUI.py:62-67 | A list holding one such path and no comma excludes exactly that path. |
| Exclusions.ParseExtensions | code-compilers-pythonGUI.py:62-65 | Every parsed extension is a dot followed by lower-case text that does not start with a dot. |
| Exclusions.ParseDirs | code-compilers-pythonGUI.py:62-67 | Every parsed directory entry is in normal form. |
| Text.SplitWithoutSeparator | code-compilers-pythonGUI.py:63 | Text without a comma splits into itself alone. |
| Exclusions.ParseBlankEntry | code-compilers-pythonGUI.py:63-67 | A single blank entry yields no extension and no directory. |
| Exclusions.ParseSingleExtension | code-compilers-pythonGUI.py:65 | A single non-blank entry yields exactly its own extension. |
| Exclusions.ParseSingleDir | code-compilers-pythonGUI.py:67 | A single non-blank entry yields exactly its own directory. |
| Exclusions.ParseAppend | code-compilers-pythonGUI.py:63-67 | The entries of a comma-joined list are the union of the entries of its halves. |
| Exclusions.ParseDropsBlankEntry | code-compilers-pythonGUI.py:63-67 | Adding a blank entry to a list changes neither parse. |
| Exclusions.ExtensionSpellings | code-compilers-pythonGUI.py:65 | `TXT`, `.txt`, `txt` and ` txt ` each parse to exactly `{.txt}`. |
| Exclusions.BlankEntriesDropped | code-compilers-pythonGUI.py:63-67 | The list ` , ,` holds no entry in either mode. |
| Exclusions.IsDirExcluded | code-compilers-pythonGUI.py:170 | The root `""` is never excluded, and a set holding only empty entries excludes nothing. |
| Exclusions.ExclusionClosedUnderDescent | code-compilers-pythonGUI.py:170 | Every path below an excluded path is excluded. |
| Exclusions.ExclusionBySegment | code-compilers-pythonGUI.py:170 | `a` excludes `a` and `a/b`, but not `ab`; `a/b` does not exclude `a`. |
| Exclusions.IsExtensionExcluded | code-compilers-pythonGUI.py:239 | An extension is excluded exactly when the set holds it, so an empty set excludes nothing. |
| Exclusions.ExtensionExclusionIgnoresCaseAndDot | code-compilers-pythonGUI.py:237-239 | A file `a.TXT` has key `.txt` and is excluded by the entry `TXT`, `.txt` or `txt`. |
| Tree.CurrentRel | code-compilers-pythonGUI.py:163-164 | The current directory's path is in normal form and is never `.`. |
| Tree.ChildPath | code-compilers-pythonGUI.py:169 | The path a subdirectory is tested against is in normal form. |
| Tree.RawJoin | code-compilers-pythonGUI.py:163 | `os.path.relpath` of a subdirectory: its name below the root, and otherwise the parent's relpath, `/` and the name. It is not normalised, so a `\` in a name survives until the arrival check normalises it. |
| Tree.Contribution | code-compilers-pythonGUI.py:174-181 | A visited directory hands on its files unless the arrival check excludes it. |
| Tree.Scan | code-compilers-pythonGUI.py:162-181 | The files the walk from the root hands on, in walk order. `Tree.ScanIsAdmittedFiles` characterises them. |
| Tree.Walk | code-compilers-pythonGUI.py:162-172 | A listable directory is visited first, with its own path and files. A directory that cannot be listed yields nothing. |
| Tree.WalkChildren | code-compilers-pythonGUI.py:166-172 | The pruning loop over `dirnames` (repeated at lines 223-229 and 280-286): the subdirectories are walked in listing order, except the ones whose joined path is excluded. `Tree.WalkChildrenConcat` and `Tree.WalkChildPruned` pin it down. |
| Tree.WalkChildrenConcat | code-compilers-pythonGUI.py:166-172 | Walking two runs of sibling subdirectories walks the first run, then the second. |
| Tree.WalkChildPruned | code-compilers-pythonGUI.py:166-172 | A pruned subdirectory contributes no visit at all. A kept one contributes its whole walk from its own relpath. |
| Tree.FilesAt | code-compilers-pythonGUI.py:179-181 | Each file of a visited directory is handed on in listing order, with the normalised join of the directory and its name. |
| Tree.Listed | code-compilers-pythonGUI.py:174-181 | No file comes from a directory that the arrival check excludes, and every file carries its normalised joined path. |
| Tree.ListedAppend | code-compilers-pythonGUI.py:174-181 | The files of two runs of visits are the files of each run in turn. |
| Tree.AdmittedSubset | code-compilers-pythonGUI.py:174-177 | An admitted file was in the input, and its directory is not excluded. |
| Tree.ChildPathAgrees | code-compilers-pythonGUI.py:163-169 | For a well-named subdirectory, the path its parent tests equals the path the walk computes on arrival, which is the plain join. |
| Tree.ExcludedSubtree | code-compilers-pythonGUI.py:166-177 | In a well-named tree, below an excluded directory no file of any depth is admitted. |
| Tree.WalkAdmits | code-compilers-pythonGUI.py:162-181 | In a well-named tree, the files the walk yields are exactly the files of the whole subtree whose directory is not excluded, in walk order. |
| Tree.WalkVisitsAdmitted | code-compilers-pythonGUI.py:166-177 | In a well-named tree, no visited directory is excluded. |
| Tree.ScanIsAdmittedFiles | code-compilers-pythonGUI.py:162-181 | In a well-named tree, the walk from the root yields exactly the files outside excluded directories; with nothing excluded, every file. |
| Tree.RecheckNeverFires | code-compilers-pythonGUI.py:174-177 | In a well-named tree the arrival check rejects no visited directory. |
| Tree.ScanAvoidsExcludedDirs | code-compilers-pythonGUI.py:166-181 | In a well-named tree, no file the walk yields has a path below a non-empty excluded entry. |
| Tree.AllFilesWellNamed | code-compilers-pythonGUI.py:181 | Every file of a well-named tree has a directory in normal form, and its path is the plain join of directory and name. |
| Tree.PathBelowMeansDirBelow | code-compilers-pythonGUI.py:181 | If a file's path lies below an entry, its directory is that entry or lies below it. |
| Tree.LocatedPathOutside | code-compilers-pythonGUI.py:170 | A file in a directory that is not excluded has no path below an excluded entry. |
| Tree.RecheckFiresOnBackslashName | code-compilers-pythonGUI.py:163-177 | With a directory `a\` holding `b` and the entry `a//b`, both pruning tests admit, but the arrival check excludes `a//b`, so its file is not yielded. |
| Tree.BackslashFileEscapesExclusion | code-compilers-pythonGUI.py:174-181 | A root file named `x\y` is yielded with path `x/y` even when `x` is excluded, because only its directory is tested. |
| Tree.PruningHidesBackslashSubtree | code-compilers-pythonGUI.py:162-181 | With a directory `a\` holding `b` and the entry `a/b`, the walk prunes `b` and yields nothing, yet the full enumeration files `b`'s file under the admitted directory `a//b`. |
| Output.HeaderFields | code-compilers-pythonGUI.py:246 | The header is 24 characters longer than the path, and the path can be read back from between the fixed prefix and suffix. |
| Output.HeaderInjective | code-compilers-pythonGUI.py:246 | Different paths get different headers. |
| Output.Header | code-compilers-pythonGUI.py:246 | The line that opens a file's block: `--- RELATIVE PATH: `, the path, then ` ---` and a newline. `Output.HeaderFields` reads the path back. |
| Output.ConcatAppend | code-compilers-pythonGUI.py:246-253 | Writing two runs of blocks in turn writes their concatenations in turn. |
| Output.Concat | code-compilers-pythonGUI.py:246-253 | The successive `outfile.write` calls (also lines 295 and 339-351): nothing is written for no blocks, and `Output.ConcatAppend` shows that runs of blocks are written in turn. |
| Survey.Sightings | code-compilers-pythonGUI.py:179-183 | Each scanned file becomes its path together with its lower-cased extension, in walk order. |
| Survey.Take | code-compilers-pythonGUI.py:187 | The kept examples are a prefix of at most three. They are all of them when there are at most three, and exactly three otherwise. |
| Survey.TakeAppend | code-compilers-pythonGUI.py:187-188 | A new path is appended only while fewer than three are kept. |
| Survey.Record | code-compilers-pythonGUI.py:184-188 | One file's effect on the index: a file with an extension opens its key and adds its path while fewer than three are kept. `Survey.RecordGathers` shows that this keeps the first three per key. |
| Survey.PathsWithKeyAppend | code-compilers-pythonGUI.py:184-188 | The step of the reference list used by `Survey.RecordGathers`: a new file adds its path to its own key's list and to no other. |
| Survey.RecordGathers | code-compilers-pythonGUI.py:184-188 | Recording one file keeps the index equal to the first three paths per key over the longer scan. |
| Survey.Note | code-compilers-pythonGUI.py:184-188 | The loop body takes an index that holds the first three paths per key over the files seen so far to the same index over those files and one more. |
| Survey.SurveyFile | code-compilers-pythonGUI.py:180-188 | The loop body for one scanned file: it computes the file's key, and an index gathered over the earlier files becomes the index gathered over those files and this one. |
| Survey.SurveyScan | code-compilers-pythonGUI.py:179-188 | Every scanned file is counted, extensionless ones included. The index maps each key that some file has to the first three paths with that key. |
| Survey.SurveyExtensions | code-compilers-pythonGUI.py:152-188 | The count is the number of files outside excluded directories. The index is gathered over those files, has no entry for the empty extension, and holds one to three examples per key. |
| Compiler.BlockRoundTrip | code-compilers-pythonGUI.py:246-253 | A block ends in `\n\n`. The path can be read back after the header prefix. The text, or the error marker and message, can be read back after the header. |
| Compiler.Body | code-compilers-pythonGUI.py:249-253 | What follows the header: the file's text then `\n\n`, or `ERROR READING FILE: `, the message, then `\n\n`. |
| Compiler.BodyFields | code-compilers-pythonGUI.py:249-253 | A body ends in `\n\n`. Before that comes the text, or `ERROR READING FILE: ` and the message. |
| Compiler.Block | code-compilers-pythonGUI.py:246-253 | A kept file's block is its header followed by its body. `Compiler.BlockRoundTrip` reads the path and the text or message back. |
| Compiler.Compiled | code-compilers-pythonGUI.py:236-239 | A walked file is written unless the exclusion set is non-empty and holds its lower-cased extension. |
| Compiler.Kept | code-compilers-pythonGUI.py:236-240 | The compiler keeps no more files than the walk yields; `Compiler.KeptIff` states which ones and `Compiler.KeptConcat` that the order is kept. |
| Compiler.KeptConcat | code-compilers-pythonGUI.py:236-240 | Filtering a walk in two parts keeps the kept files of the first part, then those of the second. |
| Compiler.KeptIff | code-compilers-pythonGUI.py:236-240 | A file is written exactly when the walk yields it and its lower-cased extension is not excluded. |
| Compiler.KeptStep | code-compilers-pythonGUI.py:236-240 | The loop step of `Compiler.CompileScan`: one more walked file extends the kept files by that file exactly when it is compiled, and by nothing otherwise. |
| Compiler.KeptAll | code-compilers-pythonGUI.py:239 | With no extension excluded, every file the walk yields is written. |
| Compiler.Blocks | code-compilers-pythonGUI.py:246-253 | There is one block per file, in file order. |
| Compiler.BlocksConcat | code-compilers-pythonGUI.py:246-253 | The blocks of two runs of files are the blocks of the first run, then those of the second. |
| Compiler.Successes | code-compilers-pythonGUI.py:251 | At most as many files are processed as are written; `Compiler.SuccessesAndFailures` and `Compiler.SuccessesConcat` relate it to the files. |
| Compiler.SuccessesConcat | code-compilers-pythonGUI.py:251 | The successful reads of two runs of files add up. |
| Compiler.BlocksAppend | code-compilers-pythonGUI.py:246-253 | The loop step of `Compiler.CompileScan`: one more kept file appends its block to the output and adds one to the counter exactly when it reads. |
| Compiler.SuccessesAndFailures | code-compilers-pythonGUI.py:247-253 | Every written file is counted once, as processed or as a read error. |
| Compiler.CompiledAvoidsExcludedDirs | code-compilers-pythonGUI.py:219-240 | In a well-named tree, no compiled file lies in or below an excluded directory. |
| Compiler.Compile | code-compilers-pythonGUI.py:205-253 | The output is the blocks of the kept files in walk order. The counter is the number of kept files that read without error. |
| Compiler.CompileScan | code-compilers-pythonGUI.py:236-253 | The loop over the walked files writes the blocks of the kept files in order and counts the successful reads. |
| Compiler.CompileFile | code-compilers-pythonGUI.py:236-253 | One walked file's block is appended if, and only if, its extension is not excluded; it is counted if, and only if, it is also readable. |
| Compiler.WriteBlock | code-compilers-pythonGUI.py:246-253 | Writing one file appends its block, and reports whether the read succeeded. |
| PathExport.Lines | code-compilers-pythonGUI.py:295 | The output is empty exactly when there are no paths. |
| PathExport.PathsOf | code-compilers-pythonGUI.py:294 | Each exported line carries the path of the matching walked file, in walk order. |
| PathExport.LinesAppend | code-compilers-pythonGUI.py:295 | Exporting one more path appends the path and a newline. |
| PathExport.LinesSplit | code-compilers-pythonGUI.py:293-295 | When no path holds a newline, splitting the output at newlines gives the paths in order, then an empty last piece. |
| PathExport.ExportPaths | code-compilers-pythonGUI.py:263-296 | The output is one line per file outside excluded directories, in walk order. The counter is the number of those files. |
| PathExport.ExportScan | code-compilers-pythonGUI.py:293-296 | The loop writes one line per walked file and counts each one. |
| PathExport.ExportedCountsLines | code-compilers-pythonGUI.py:293-296 | When no path holds a newline, the output has exactly as many newline-terminated lines as the counter says. |
| PathExport.ExportedAvoidsExcludedDirs | code-compilers-pythonGUI.py:276-296 | In a well-named tree, no exported path lies in or below an excluded directory. |
| Selective.Pick | code-compilers-pythonGUI.py:322 | One line contributes at most one path; `Selective.SelectedIff` states which. |
| Selective.Selected | code-compilers-pythonGUI.py:322 | The list comprehension over the lines: `Selective.SelectedIff` states which paths come out and `Selective.SelectedAppend` that they keep line order. |
| Selective.Selection | code-compilers-pythonGUI.py:316-322 | The paths read from the text box: the whole text stripped, split into lines, and each non-blank line stripped and normalised, in line order. `Selective.SelectedIff`, `Selective.SelectedFirstLine` and `Selective.SelectionNonEmpty` characterise it. |
| Selective.FlatMapAppend | code-compilers-pythonGUI.py:322 | Processing two runs of lines gives the results of each run in turn. |
| Selective.FlatMapIff | code-compilers-pythonGUI.py:322 | A path comes out exactly when some line yields it. |
| Selective.SelectedAppend | code-compilers-pythonGUI.py:322 | The selection keeps the order of the input lines. |
| Selective.SelectedFirstLine | code-compilers-pythonGUI.py:322 | The first line's path comes before every path selected from the text after its line break. |
| Selective.SelectedIff | code-compilers-pythonGUI.py:322 | A path is selected exactly when some non-blank line strips and normalises to it, and every selected path is in normal form. |
| Selective.SelectionNonEmpty | code-compilers-pythonGUI.py:316-324 | Input that is not blank selects at least one path. |
| Selective.EntryBlocks | code-compilers-pythonGUI.py:333-353 | There is one block per selected path; `Selective.EntryConcat` and `Selective.EntryBlockRoundTrip` state its contents and order. |
| Selective.Succeeds | code-compilers-pythonGUI.py:337-349 | A listed path is a file that reads. `Selective.EntryBlockRoundTrip` shows its block holds its text. `Selective.SucceedsCounted` shows it is counted as processed, and every other path as an error. |
| Selective.SkippedBlock | code-compilers-pythonGUI.py:339 | The block for a path that is not a file under the root: `--- SKIPPED (Not a file or not found): `, the path, ` ---` and a blank line. |
| Selective.EntryBlock | code-compilers-pythonGUI.py:336-351 | A listed path gets the skipped block when it is not a file. Otherwise it gets its header followed by its text and `\n\n`, or by `ERROR READING FILE (`, the path, `): `, the message and `\n\n`. |
| Selective.EntryConcat | code-compilers-pythonGUI.py:333-353 | The blocks and both counters of a selection in two parts are those of the first part followed by, or added to, those of the second. |
| Selective.Processed | code-compilers-pythonGUI.py:349 | No more paths are processed than are selected; `Selective.ProcessedAndErrors` and `Selective.EntryConcat` state how it adds up. |
| Selective.Errors | code-compilers-pythonGUI.py:340-353 | Counts the listed paths that are skipped or fail to read; `Selective.ProcessedAndErrors` shows they complement the processed ones. |
| Selective.SucceedsCounted | code-compilers-pythonGUI.py:337-353 | One listed path raises the processed counter exactly when it is a file that reads, and the error counter exactly when it is not. |
| Selective.ProcessedAndErrors | code-compilers-pythonGUI.py:337-353 | Every selected path is counted once, as processed or as an error. |
| Selective.Export | code-compilers-pythonGUI.py:316-353 | "No Files" is returned exactly when the stripped input is empty. On export, processed plus errors equals the number of selected paths. |
| Selective.NoValidPathsUnreachable | code-compilers-pythonGUI.py:322-327 | The "no valid paths" return is never taken. |
| Selective.ExportFiles | code-compilers-pythonGUI.py:316-353 | The method with the early returns and the loop computes `Export`. |
| Selective.ExportSelection | code-compilers-pythonGUI.py:329-353 | The loop writes the blocks of the selected paths in order and keeps both counters. |
| Selective.ExportEntry | code-compilers-pythonGUI.py:333-353 | One selected path appends its block. It raises the processed counter when the file reads, and the error counter otherwise. |
| Selective.EntryStep | code-compilers-pythonGUI.py:333-353 | The loop step of `Selective.ExportSelection`: one more selected path extends the output and the counters by that path's block and count. |
| Selective.EntryBlockRoundTrip | code-compilers-pythonGUI.py:337-351 | From every block one can read back the path, and the text or the error message. A SKIPPED block and a header block differ in their fifth character. |

## Left out

- The Tk interface is not modelled: widgets, `_log_status`, message boxes, `_browse_root_dir`, and the text of status and log messages.
- `_check_root_dir_set` is not modelled. Every mode is given a tree whose root exists.
- The survey's report is left out: the extensions sorted into log text, lines 190-199. The model keeps the index and the count it is built from.
- Progress logging every 200 exported paths, lines 297-298, is left out because it only writes to the log.
- The handlers that catch failures while writing the output file are left out: lines 200, 258, 302 and 361.
- The `surrogateescape` error handler on input and output is left out. The path exporter's output file lacks it, so an unencodable file name aborts that export (line 275); this is not modelled either. Text is a string of Unicode scalar values.
- File reads are not performed. `ReadOutcome` abstracts what `open(...).read()` returns or raises.
- Writes to the output file never fail in the model. In the source, a write of the text or of its `\n\n` that fails inside the inner `try` (lines 249-250 and 347-348) is caught there. The source then writes the error line after the partial output and does not count the file as processed. This case is not modelled.
- The filesystem is not modelled:
  - the order of `os.walk` is the listing order of the `Node` value;
  - `os.walk` drops unlistable directories without a callback, and `Unlistable` models that;
  - symbolic links are not modelled.
- The selective exporter's `os.path.isfile(join(root, p))` and `open` are given as a map from path to read outcome. Paths such as `../x` that leave the root are just keys of that map.
- The Tk text box always ends its content with a newline. The model takes the text without that newline, which `strip()` removes anyway.
- `Text.Lower`: maps only ASCII letters, because Python's full Unicode case mapping is not modelled. Extensions outside ASCII are therefore compared without case folding. Paths are never case-folded by the program.
- `Tree.RecheckNeverFires`, `Tree.ScanIsAdmittedFiles`, `Tree.WalkAdmits`, `Tree.ExcludedSubtree`, `Tree.ScanAvoidsExcludedDirs`, `Compiler.CompiledAvoidsExcludedDirs` and `PathExport.ExportedAvoidsExcludedDirs` hold only in a well-named tree: no `/` or `\` in a name, and no name `.`. Outside such trees they fail, as the counterexamples `Tree.RecheckFiresOnBackslashName`, `Tree.BackslashFileEscapesExclusion` and `Tree.PruningHidesBackslashSubtree` show.
- `Exclusions.ExcludingOwnExtension`: an extension that ends in whitespace (a file `a. `) or holds a comma is not excluded by typing it, because `strip` and `split(',')` change the entry but not the key.
- The model assumes a POSIX host: `\` is an ordinary character in names, `os.path.relpath` and `os.path.join` use `/`, and output lines end in `\n`. On Windows `\` is a separator, and the text-mode output files opened at lines 218, 275 and 332 write every `\n` as `\r\n`. Neither is modelled.
- `PathExport.LinesSplit` and `PathExport.ExportedCountsLines` need paths without a newline. A file name that holds one breaks the one-path-per-line format.

=== FILE: compiler.dfy ===
/**
 * "Compile Sources": the walk again, now with the extension filter, and
 * for every file it keeps a block holding the file's path and its text
 * (or the read error) written to one output.
 */
module Compiler {
  import opened Text
  import opened Paths
  import opened Exclusions
  import opened Tree
  import opened Output

  const ReadErrorPrefix := "ERROR READING FILE: "

  /** What follows the header of a compiled file: its text, or the error marker with the message. */
  function Body(read: ReadOutcome): string {
    match read
    case Readable(text) => text + BlockEnd
    case ReadFailure(message) => ReadErrorPrefix + message + BlockEnd
  }

  /** The block the compiler writes for one kept file. */
  function Block(l: Located): string {
    Header(l.path) + Body(l.file.read)
  }

  /**
   * The block gives back the file's path, and its text or its error
   * message, from between the fixed text around them.
   */
  lemma BlockRoundTrip(l: Located)
    ensures var b := Block(l); var h := |l.path| + 24;
      && |b| >= h + 2 && b[|b| - 2..] == BlockEnd
      && b[19..h - 5] == l.path
      && (l.file.read.Readable? ==> b[h..|b| - 2] == l.file.read.text)
      && (l.file.read.ReadFailure? ==> b[h..h + 20] == ReadErrorPrefix && b[h + 20..|b| - 2] == l.file.read.message)
  {
    var h := Header(l.path);
    var body := Body(l.file.read);
    HeaderFields(l.path);
    BodyFields(l.file.read);
    assert Block(l) == h + body && |h| == |l.path| + 24;
    AfterPrefix(h, body, 0, |body| - 2);
    AfterPrefix(h, body, |body| - 2, |body|);
    assert (h + body)[19..|h| - 5] == h[19..|h| - 5];
    if l.file.read.ReadFailure? {
      AfterPrefix(h, body, 0, 20);
      AfterPrefix(h, body, 20, |body| - 2);
    }
  }

  /** The body gives back the text, or the error marker and the message, before the closing blank line. */
  lemma BodyFields(read: ReadOutcome)
    ensures var body := Body(read);
      && |body| >= 2 && body[|body| - 2..] == BlockEnd
      && (read.Readable? ==> body[..|body| - 2] == read.text)
      && (read.ReadFailure? ==> |body| >= 22 && body[..20] == ReadErrorPrefix && body[20..|body| - 2] == read.message)
  {
    assert |ReadErrorPrefix| == 20 && |BlockEnd| == 2;
  }

  /** A slice of what follows a prefix, read from the whole text. */
  lemma AfterPrefix(h: string, body: string, i: nat, j: nat)
    requires i <= j <= |body|
    ensures (h + body)[|h| + i..|h| + j] == body[i..j]
  {
  }

  /** Whether the compiler writes a file: its key is not in the extension list (an empty list excludes nothing). */
  predicate Compiled(l: Located, extExcluded: set<string>) {
    !IsExtensionExcluded(ExtensionKey(l.file.name), extExcluded)
  }

  /** Reference: the files the compiler writes, in walk order. */
  function Kept(scan: seq<Located>, extExcluded: set<string>): (kept: seq<Located>)
    ensures |kept| <= |scan|
  {
    if scan == [] then []
    else
      var last := scan[|scan| - 1];
      Kept(scan[..|scan| - 1], extExcluded) + (if Compiled(last, extExcluded) then [last] else [])
  }

  function Blocks(files: seq<Located>): (blocks: seq<string>)
    ensures |blocks| == |files|
  {
    if files == [] then [] else Blocks(files[..|files| - 1]) + [Block(files[|files| - 1])]
  }

  /** How many of `files` read without error. */
  function Successes(files: seq<Located>): (n: nat)
    ensures n <= |files|
  {
    if files == [] then 0
    else Successes(files[..|files| - 1]) + (if files[|files| - 1].file.read.Readable? then 1 else 0)
  }

  /** How many of `files` failed to read. */
  function Failures(files: seq<Located>): nat {
    if files == [] then 0
    else Failures(files[..|files| - 1]) + (if files[|files| - 1].file.read.ReadFailure? then 1 else 0)
  }

  /** Every written block is either a processed file or a read error. */
  lemma {:induction false} SuccessesAndFailures(files: seq<Located>)
    ensures Successes(files) + Failures(files) == |files|
  {
    if files != [] {
      SuccessesAndFailures(files[..|files| - 1]);
    }
  }

  /** A file is written exactly when the walk yields it and its key is not excluded. */
  lemma {:induction false} KeptIff(scan: seq<Located>, extExcluded: set<string>, l: Located)
    ensures l in Kept(scan, extExcluded) <==> l in scan && ExtensionKey(l.file.name) !in extExcluded
  {
    if scan != [] {
      var init, last := scan[..|scan| - 1], scan[|scan| - 1];
      KeptIff(init, extExcluded, l);
      assert l in scan <==> l in init || l == last by {
        SplitLast(scan);
      }
      assert Compiled(last, extExcluded) <==> ExtensionKey(last.file.name) !in extExcluded;
      var tail := if Compiled(last, extExcluded) then [last] else [];
      assert Kept(scan, extExcluded) == Kept(init, extExcluded) + tail;
      assert l in Kept(scan, extExcluded) <==> l in Kept(init, extExcluded) || l in tail;
    }
  }

  lemma SplitLast(s: seq<Located>)
    requires s != []
    ensures s == s[..|s| - 1] + [s[|s| - 1]]
  {
  }

  lemma SplitLastOfConcat(a: seq<Located>, b: seq<Located>)
    requires b != []
    ensures a + b == (a + b[..|b| - 1]) + [b[|b| - 1]]
  {
    SplitLast(b);
  }

  /** Filtering a walk in two parts keeps the kept files of each part, in walk order. */
  lemma {:induction false} KeptConcat(a: seq<Located>, b: seq<Located>, extExcluded: set<string>)
    ensures Kept(a + b, extExcluded) == Kept(a, extExcluded) + Kept(b, extExcluded)
    decreases |b|
  {
    if b == [] {
      assert a + b == a;
      assert Kept(a, extExcluded) + Kept(b, extExcluded) == Kept(a, extExcluded);
    } else {
      var n := |b| - 1;
      var last := b[n];
      var tail := if Compiled(last, extExcluded) then [last] else [];
      SplitLast(b);
      SplitLastOfConcat(a, b);
      KeptSnoc(a + b[..n], last, extExcluded);
      KeptSnoc(b[..n], last, extExcluded);
      KeptConcat(a, b[..n], extExcluded);
      var x, y := Kept(a, extExcluded), Kept(b[..n], extExcluded);
      assert Kept(a + b, extExcluded) == (x + y) + tail;
      assert Kept(b, extExcluded) == y + tail;
      AppendAssociates(x, y, tail);
    }
  }

  lemma AppendAssociates(x: seq<Located>, y: seq<Located>, z: seq<Located>)
    ensures (x + y) + z == x + (y + z)
  {
  }

  lemma KeptSnoc(s: seq<Located>, l: Located, extExcluded: set<string>)
    ensures Kept(s + [l], extExcluded) == Kept(s, extExcluded) + (if Compiled(l, extExcluded) then [l] else [])
  {
    assert (s + [l])[..|s|] == s;
  }

  /** The blocks of two runs of files are the blocks of each run in turn. */
  lemma {:induction false} BlocksConcat(a: seq<Located>, b: seq<Located>)
    ensures Blocks(a + b) == Blocks(a) + Blocks(b)
    decreases |b|
  {
    if b == [] {
      assert a + b == a;
    } else {
      var n := |b| - 1;
      assert (a + b)[..|a + b| - 1] == a + b[..n];
      assert (a + b)[|a + b| - 1] == b[n];
      BlocksConcat(a, b[..n]);
    }
  }

  /** The successful reads of two runs of files add up. */
  lemma {:induction false} SuccessesConcat(a: seq<Located>, b: seq<Located>)
    ensures Successes(a + b) == Successes(a) + Successes(b)
    decreases |b|
  {
    if b == [] {
      assert a + b == a;
    } else {
      var n := |b| - 1;
      assert (a + b)[..|a + b| - 1] == a + b[..n];
      assert (a + b)[|a + b| - 1] == b[n];
      SuccessesConcat(a, b[..n]);
    }
  }

  /** With no extension excluded, every file the walk yields is written. */
  lemma {:induction false} KeptAll(scan: seq<Located>)
    ensures Kept(scan, {}) == scan
  {
    if scan != [] {
      KeptAll(scan[..|scan| - 1]);
      assert Compiled(scan[|scan| - 1], {});
      SplitLast(scan);
    }
  }

  /** No compiled file lies below an excluded directory. */
  lemma CompiledAvoidsExcludedDirs(root: Node, extText: string, dirText: string, l: Located, e: string)
    requires WellNamedTree(root)
    requires l in Kept(Scan(root, ParseDirs(dirText)), ParseExtensions(extText))
    requires e in ParseDirs(dirText) && e != []
    ensures !StartsWith(l.path, e + "/") && !IsDirExcluded(l.dir, ParseDirs(dirText))
  {
    var scan := Scan(root, ParseDirs(dirText));
    KeptIff(scan, ParseExtensions(extText), l);
    var i :| 0 <= i < |scan| && scan[i] == l;
    ScanAvoidsExcludedDirs(root, ParseDirs(dirText), i, e);
  }

  /**
   * `_compiler_compile_sources` without the output file: the blocks of the
   * kept files in walk order, and the number of files read without error.
   */
  method Compile(root: Node, extText: string, dirText: string) returns (output: string, processed: nat)
    ensures output == Concat(Blocks(Kept(Scan(root, ParseDirs(dirText)), ParseExtensions(extText))))
    ensures processed == Successes(Kept(Scan(root, ParseDirs(dirText)), ParseExtensions(extText)))
  {
    output, processed := CompileScan(Scan(root, ParseDirs(dirText)), ParseExtensions(extText));
  }

  method CompileScan(scan: seq<Located>, extExcluded: set<string>) returns (output: string, processed: nat)
    ensures output == Concat(Blocks(Kept(scan, extExcluded)))
    ensures processed == Successes(Kept(scan, extExcluded))
  {
    output := [];
    var count := 0;
    var i := 0;
    while i < |scan|
      invariant 0 <= i <= |scan|
      invariant output == Concat(Blocks(Kept(scan[..i], extExcluded)))
      invariant count == Successes(Kept(scan[..i], extExcluded))
    {
      output, count := CompileFile(output, count, scan, i, extExcluded);
      i := i + 1;
    }
    assert scan[..i] == scan;
    processed := count;
  }

  /** The `i`-th file the walk yields: written, and counted if it read, unless its key is excluded. */
  method CompileFile(output: string, count: int, scan: seq<Located>, i: nat, extExcluded: set<string>)
    returns (output': string, count': int)
    requires i < |scan|
    requires output == Concat(Blocks(Kept(scan[..i], extExcluded)))
    requires count == Successes(Kept(scan[..i], extExcluded))
    ensures output' == Concat(Blocks(Kept(scan[..i + 1], extExcluded)))
    ensures count' == Successes(Kept(scan[..i + 1], extExcluded))
  {
    var l := scan[i];
    ghost var before := Kept(scan[..i], extExcluded);
    ghost var after := Kept(scan[..i + 1], extExcluded);
    output', count' := output, count;
    var ext := ExtensionKey(l.file.name);
    if !IsExtensionExcluded(ext, extExcluded) {
      var read;
      output', read := WriteBlock(output, l);
      if read {
        count' := count + 1;
      }
      assert output' == Concat(Blocks(after)) && count' == Successes(after) by {
        assert after == before + [l] by {
          KeptStep(scan, i, extExcluded);
        }
        BlocksAppend(before, l);
      }
    } else {
      assert after == before by {
        KeptStep(scan, i, extExcluded);
      }
    }
  }

  /**
   * Writing one kept file: the header, then the text and the separator,
   * or the error marker with the message; `read` tells whether the read
   * succeeded.
   */
  method WriteBlock(output: string, l: Located) returns (next: string, read: bool)
    ensures next == output + Block(l)
    ensures read <==> l.file.read.Readable?
  {
    next := output + Header(l.path);
    match l.file.read {
      case Readable(text) =>
        next := next + text + BlockEnd;
        read := true;
      case ReadFailure(message) =>
        next := next + ReadErrorPrefix + message + BlockEnd;
        read := false;
    }
  }

  lemma KeptStep(scan: seq<Located>, i: nat, extExcluded: set<string>)
    requires i < |scan|
    ensures Kept(scan[..i + 1], extExcluded)
      == Kept(scan[..i], extExcluded) + (if Compiled(scan[i], extExcluded) then [scan[i]] else [])
  {
    assert scan[..i + 1][..i] == scan[..i];
  }

  lemma BlocksAppend(files: seq<Located>, l: Located)
    ensures Concat(Blocks(files + [l])) == Concat(Blocks(files)) + Block(l)
    ensures Successes(files + [l]) == Successes(files) + (if l.file.read.Readable? then 1 else 0)
  {
    assert Blocks(files + [l])[..|files|] == Blocks(files);
    assert (files + [l])[..|files|] == files;
  }
}

=== FILE: exclusions.dfy ===
/**
 * The two exclusion lists a user types (comma-separated extensions and
 * comma-separated relative directories) and the rules that apply them.
 */
module Exclusions {
  import opened Text
  import opened Paths

  /** One extension entry: trimmed, leading dots dropped, lower-cased, then exactly one dot put in front. */
  function ExtensionEntry(part: string): (e: string)
    ensures |e| >= 1 && e[0] == '.'
    ensures |e| == 1 || e[1] != '.'
    ensures forall i :: 0 <= i < |e| ==> !IsUpper(e[i])
  {
    DotLower(TrimLeft(Strip(part), IsDot))
  }

  /** A dot put before lower-cased text that does not start with a dot. */
  function DotLower(t: string): (e: string)
    requires t == [] || t[0] != '.'
    ensures |e| >= 1 && e[0] == '.'
    ensures |e| == 1 || e[1] != '.'
    ensures forall i :: 0 <= i < |e| ==> !IsUpper(e[i])
    ensures |e| == |t| + 1 && forall i :: 0 <= i < |t| ==> e[i + 1] == LowerChar(t[i])
  {
    var l := Lower(t);
    var e := "." + l;
    assert |e| > 1 ==> e[1] == LowerChar(t[0]);
    assert forall i :: 1 <= i < |e| ==> e[i] == l[i - 1];
    e
  }

  /** One directory entry: trimmed, then normalised. */
  function DirEntry(part: string): (d: string)
    ensures IsNormal(d)
  {
    Normalize(Strip(part))
  }

  /**
   * `_parse_exclusions(..., is_extensions=True)`: every non-blank
   * comma-separated entry becomes a dot followed by lower-case text that
   * does not itself start with a dot.
   */
  function ParseExtensions(text: string): (exts: set<string>)
    ensures forall e :: e in exts ==> |e| >= 1 && e[0] == '.' && (|e| == 1 || e[1] != '.')
    ensures forall e, i :: e in exts && 0 <= i < |e| ==> !IsUpper(e[i])
  {
    set part | part in Split(text, ',') && Strip(part) != [] :: ExtensionEntry(part)
  }

  /** `_parse_exclusions(...)` for directories: every non-blank entry, trimmed and normalised. */
  function ParseDirs(text: string): (dirs: set<string>)
    ensures forall d :: d in dirs ==> IsNormal(d)
  {
    set part | part in Split(text, ',') && Strip(part) != [] :: DirEntry(part)
  }

  /** A list without commas that is blank holds no entry. */
  lemma ParseBlankEntry(part: string)
    requires ',' !in part && Strip(part) == []
    ensures ParseExtensions(part) == {}
    ensures ParseDirs(part) == {}
  {
    SplitWithoutSeparator(part, ',');
    var parts := Split(part, ',');
    assert forall p :: p in parts ==> Strip(p) == [] by {
      assert parts == [part];
    }
  }

  /** A list without commas that is not blank holds exactly its one entry. */
  lemma ParseSingleExtension(part: string)
    requires ',' !in part && Strip(part) != []
    ensures ParseExtensions(part) == {ExtensionEntry(part)}
  {
    SplitWithoutSeparator(part, ',');
    var parts := Split(part, ',');
    assert part in parts && forall p :: p in parts ==> p == part by {
      assert parts == [part];
    }
  }

  /** A list without commas that is not blank holds exactly its one directory. */
  lemma ParseSingleDir(part: string)
    requires ',' !in part && Strip(part) != []
    ensures ParseDirs(part) == {DirEntry(part)}
  {
    SplitWithoutSeparator(part, ',');
  }

  /** The entries of a joined list are the entries of its two halves. */
  lemma ParseAppend(a: string, b: string)
    ensures ParseExtensions(a + "," + b) == ParseExtensions(a) + ParseExtensions(b)
    ensures ParseDirs(a + "," + b) == ParseDirs(a) + ParseDirs(b)
  {
    SplitAppend(a, b, ',');
    assert a + "," + b == a + [','] + b;
  }

  /** A blank entry contributes nothing to either list. */
  lemma ParseDropsBlankEntry(a: string, blank: string)
    requires ',' !in blank && Strip(blank) == []
    ensures ParseExtensions(a + "," + blank) == ParseExtensions(a)
    ensures ParseDirs(a + "," + blank) == ParseDirs(a)
  {
    ParseAppend(a, blank);
    ParseBlankEntry(blank);
  }

  /** `TXT`, `.txt`, `txt` and ` txt ` all name the extension `.txt`. */
  lemma ExtensionSpellings()
    ensures ParseExtensions("TXT") == {".txt"}
    ensures ParseExtensions(".txt") == {".txt"}
    ensures ParseExtensions("txt") == {".txt"}
    ensures ParseExtensions(" txt ") == {".txt"}
  {
    SpellingUpper();
    SpellingLower();
    SpellingDotted();
    SpellingPadded();
  }

  lemma StripUpper()
    ensures Strip("TXT") == "TXT"
  {
    assert !IsSpace('T');
  }

  lemma StripLower()
    ensures Strip("txt") == "txt"
  {
    assert !IsSpace('t');
  }

  lemma StripDotted()
    ensures Strip(".txt") == ".txt"
  {
    assert !IsSpace('.') && !IsSpace('t');
  }

  lemma StripPadded()
    ensures Strip(" txt ") == "txt"
  {
    assert TrimLeft(" txt ", IsSpace) == "txt " by {
      assert IsSpace(' ') && !IsSpace('t');
      assert " txt "[1..] == "txt ";
    }
    assert TrimRight("txt ", IsSpace) == "txt" by {
      assert "txt "[..3] == "txt";
      assert !IsSpace('t');
    }
  }

  lemma DotLowerTxt(t: string)
    requires t == "txt" || t == "TXT"
    ensures DotLower(t) == ".txt"
  {
  }

  lemma EntryOfTxt(part: string)
    requires TrimLeft(Strip(part), IsDot) == "txt" || TrimLeft(Strip(part), IsDot) == "TXT"
    ensures ExtensionEntry(part) == ".txt"
  {
    DotLowerTxt(TrimLeft(Strip(part), IsDot));
  }

  /** A one-entry list whose entry, trimmed and stripped of dots, reads `txt` or `TXT`. */
  lemma SpellingOfTxt(part: string)
    requires ',' !in part && Strip(part) != []
    requires TrimLeft(Strip(part), IsDot) == "txt" || TrimLeft(Strip(part), IsDot) == "TXT"
    ensures ParseExtensions(part) == {".txt"}
  {
    ParseSingleExtension(part);
    EntryOfTxt(part);
  }

  lemma DotTrimmed()
    ensures TrimLeft(".txt", IsDot) == "txt"
  {
    assert ".txt"[1..] == "txt";
    assert TrimLeft("txt", IsDot) == "txt";
  }

  lemma SpellingUpper()
    ensures ParseExtensions("TXT") == {".txt"}
  {
    assert ',' !in "TXT" && Strip("TXT") == "TXT" && TrimLeft("TXT", IsDot) == "TXT" by {
      StripUpper();
    }
    SpellingOfTxt("TXT");
  }

  lemma SpellingLower()
    ensures ParseExtensions("txt") == {".txt"}
  {
    assert ',' !in "txt" && Strip("txt") == "txt" && TrimLeft("txt", IsDot) == "txt" by {
      StripLower();
    }
    SpellingOfTxt("txt");
  }

  lemma SpellingDotted()
    ensures ParseExtensions(".txt") == {".txt"}
  {
    assert ',' !in ".txt" && Strip(".txt") == ".txt" && TrimLeft(".txt", IsDot) == "txt" by {
      StripDotted();
      DotTrimmed();
    }
    SpellingOfTxt(".txt");
  }

  lemma SpellingPadded()
    ensures ParseExtensions(" txt ") == {".txt"}
  {
    assert ',' !in " txt " && Strip(" txt ") == "txt" && TrimLeft("txt", IsDot) == "txt" by {
      StripPadded();
    }
    SpellingOfTxt(" txt ");
  }

  /** A dot in front of an entry that starts with no whitespace changes nothing. */
  lemma ExtensionEntryDotted(t: string)
    requires t != [] && !IsSpace(t[0])
    ensures ExtensionEntry("." + t) == ExtensionEntry(t)
  {
    StripDotPrefix(t);
    DotPrefixTrimmed(Strip(t));
  }

  lemma StripDotPrefix(t: string)
    requires t != [] && !IsSpace(t[0])
    ensures Strip("." + t) == "." + Strip(t)
  {
    assert TrimLeft(t, IsSpace) == t;
    assert TrimLeft("." + t, IsSpace) == "." + t;
    TrimRightCons('.', t, IsSpace);
  }

  lemma DotPrefixTrimmed(x: string)
    ensures TrimLeft("." + x, IsDot) == TrimLeft(x, IsDot)
  {
    assert ("." + x)[0] == '.' && ("." + x)[1..] == x;
  }

  /** Upper-casing an entry changes nothing: only ASCII letters move, and none of them is whitespace or a dot. */
  lemma ExtensionEntryUpper(t: string)
    ensures ExtensionEntry(Upper(t)) == ExtensionEntry(t)
  {
    StripCommutesWithUpper(t);
    var x := Strip(t);
    assert forall i :: 0 <= i < |x| ==> IsDot(UpperChar(x[i])) == IsDot(x[i]);
    UpperTrimLeft(x, IsDot);
    DotLowerUpper(TrimLeft(x, IsDot));
  }

  lemma StripCommutesWithUpper(t: string)
    ensures Strip(Upper(t)) == Upper(Strip(t))
  {
    SpaceBlindToUpper(t);
    UpperTrimLeft(t, IsSpace);
    var l := TrimLeft(t, IsSpace);
    SpaceBlindToUpper(l);
    UpperTrimRight(l, IsSpace);
  }

  /** Upper-casing moves no character into or out of the whitespace set. */
  lemma SpaceBlindToUpper(t: string)
    ensures forall i :: 0 <= i < |t| ==> IsSpace(UpperChar(t[i])) == IsSpace(t[i])
  {
  }

  lemma DotLowerUpper(y: string)
    requires y == [] || y[0] != '.'
    ensures Upper(y) == [] || Upper(y)[0] != '.'
    ensures DotLower(Upper(y)) == DotLower(y)
  {
    LowerUpper(y);
  }

  /**
   * Case and a leading dot do not matter in the extension list: for any
   * one-entry list that starts with no whitespace, the dotted and the
   * upper-cased spellings name the same extensions.
   */
  lemma ExtensionSpellingsAgree(t: string)
    requires ',' !in t && t != [] && !IsSpace(t[0])
    ensures ParseExtensions("." + t) == ParseExtensions(t)
    ensures ParseExtensions(Upper(t)) == ParseExtensions(t)
  {
    assert Strip(t) != [];
    ParseSingleExtension(t);
    DottedSpellingAgrees(t);
    UpperSpellingAgrees(t);
  }

  lemma DottedSpellingAgrees(t: string)
    requires ',' !in t && t != [] && !IsSpace(t[0])
    ensures ParseExtensions("." + t) == {ExtensionEntry(t)}
  {
    assert ',' !in "." + t;
    assert Strip("." + t) != [] by {
      assert !IsSpace(("." + t)[0]);
    }
    ParseSingleExtension("." + t);
    ExtensionEntryDotted(t);
  }

  lemma UpperSpellingAgrees(t: string)
    requires ',' !in t && t != [] && !IsSpace(t[0])
    ensures ParseExtensions(Upper(t)) == {ExtensionEntry(t)}
  {
    var u := Upper(t);
    assert ',' !in u by {
      forall i | 0 <= i < |t| ensures u[i] != ',' {
        assert t[i] != ',';
      }
    }
    assert Strip(u) != [] by {
      assert !IsSpace(u[0]);
    }
    ParseSingleExtension(u);
    ExtensionEntryUpper(t);
  }

  /**
   * An extension as `splitext` returns it, typed into the list, becomes
   * exactly the key the compiler files such a name under.
   */
  lemma EntryOfExtension(ext: string)
    requires ext != [] && ext[0] == '.' && '.' !in ext[1..] && !IsSpace(ext[|ext| - 1])
    ensures ExtensionEntry(ext) == Lower(ext)
  {
    StripUnpadded(ext);
    LeadingDotDropped(ext);
    assert Lower(ext) == [LowerChar('.')] + Lower(ext[1..]);
  }

  lemma StripUnpadded(s: string)
    requires s != [] && !IsSpace(s[0]) && !IsSpace(s[|s| - 1])
    ensures Strip(s) == s
  {
    assert TrimLeft(s, IsSpace) == s;
    assert TrimRight(s, IsSpace) == s;
  }

  lemma LeadingDotDropped(ext: string)
    requires ext != [] && ext[0] == '.' && '.' !in ext[1..]
    ensures TrimLeft(ext, IsDot) == ext[1..]
  {
    var rest := ext[1..];
    assert TrimLeft(ext, IsDot) == TrimLeft(rest, IsDot);
    assert rest == [] || rest[0] != '.';
  }

  /**
   * Typing a file's own extension into the list, with or without its dot
   * and in upper case, excludes the file. The extension must not end in
   * whitespace, which `strip` would remove from the entry but
   * `splitext` keeps in the key.
   */
  lemma ExcludingOwnExtension(name: string)
    requires Extension(name) != [] && ',' !in Extension(name)
    requires !IsSpace(Extension(name)[|Extension(name)| - 1])
    ensures IsExtensionExcluded(ExtensionKey(name), ParseExtensions(Extension(name)))
    ensures |Extension(name)| > 1 && !IsSpace(Extension(name)[1]) ==>
              IsExtensionExcluded(ExtensionKey(name), ParseExtensions(Extension(name)[1..]))
    ensures IsExtensionExcluded(ExtensionKey(name), ParseExtensions(Upper(Extension(name))))
  {
    var ext := Extension(name);
    assert ExtensionKey(name) == Lower(ext);
    OwnExtensionListed(ext);
  }

  lemma OwnExtensionListed(ext: string)
    requires ext != [] && ext[0] == '.' && '.' !in ext[1..] && ',' !in ext && !IsSpace(ext[|ext| - 1])
    ensures ParseExtensions(ext) == {Lower(ext)}
    ensures |ext| > 1 && !IsSpace(ext[1]) ==> ParseExtensions(ext[1..]) == {Lower(ext)}
    ensures ParseExtensions(Upper(ext)) == {Lower(ext)}
  {
    OwnExtensionParsed(ext);
    if |ext| > 1 && !IsSpace(ext[1]) {
      DotlessExtensionParsed(ext);
    }
    UpperExtensionParsed(ext);
  }

  lemma UpperExtensionParsed(ext: string)
    requires ext != [] && ext[0] == '.' && ',' !in ext
    ensures ParseExtensions(Upper(ext)) == ParseExtensions(ext)
  {
    assert !IsSpace(ext[0]);
    ExtensionSpellingsAgree(ext);
  }

  lemma OwnExtensionParsed(ext: string)
    requires ext != [] && ext[0] == '.' && '.' !in ext[1..] && ',' !in ext && !IsSpace(ext[|ext| - 1])
    ensures ParseExtensions(ext) == {Lower(ext)}
  {
    assert Strip(ext) != [] by {
      assert !IsSpace(ext[0]);
    }
    ParseSingleExtension(ext);
    EntryOfExtension(ext);
  }

  lemma DotlessExtensionParsed(ext: string)
    requires |ext| > 1 && ext[0] == '.' && ',' !in ext && !IsSpace(ext[1])
    ensures ParseExtensions(ext[1..]) == ParseExtensions(ext)
  {
    var t := ext[1..];
    assert "." + t == ext;
    assert ',' !in t && t[0] == ext[1];
    ExtensionSpellingsAgree(t);
  }

  /** A normal directory path with no surrounding whitespace is its own entry. */
  lemma DirEntryOfNormal(d: string)
    requires IsNormal(d) && (d == [] || (!IsSpace(d[0]) && !IsSpace(d[|d| - 1])))
    ensures DirEntry(d) == d
  {
    if d != [] {
      StripUnpadded(d);
    }
    NormalizeFixedPoint(d);
  }

  /** A list holding one normal directory path, without commas, excludes exactly that path. */
  lemma ParseSingleNormalDir(d: string)
    requires IsNormal(d) && d != [] && !IsSpace(d[0]) && !IsSpace(d[|d| - 1]) && ',' !in d
    ensures ParseDirs(d) == {d}
  {
    assert Strip(d) != [];
    ParseSingleDir(d);
    DirEntryOfNormal(d);
  }

  /** A list of blank entries holds nothing. */
  lemma BlankEntriesDropped()
    ensures ParseExtensions(" , ,") == {}
    ensures ParseDirs(" , ,") == {}
  {
    assert Strip(" ") == [];
    ParseBlankEntry(" ");
    ParseBlankEntry("");
    ParseDropsBlankEntry(" ", " ");
    ParseDropsBlankEntry(" , ", "");
    assert " , ," == " , " + "," + "";
    assert " , " == " " + "," + " ";
  }

  /**
   * The directory rule: `path` is excluded when some non-empty entry
   * equals it or is a `/`-separated prefix of it.
   */
  function IsDirExcluded(path: string, excluded: set<string>): (r: bool)
    ensures path == [] ==> !r
    ensures (forall e | e in excluded :: e == []) ==> !r
  {
    exists e :: e in excluded && e != [] && (path == e || StartsWith(path, e + "/"))
  }

  /** A directory below an excluded directory is excluded too. */
  lemma ExclusionClosedUnderDescent(path: string, name: string, excluded: set<string>)
    requires IsDirExcluded(path, excluded)
    ensures IsDirExcluded(path + "/" + name, excluded)
  {
    var e :| e in excluded && e != [] && (path == e || StartsWith(path, e + "/"));
    var child := path + "/" + name;
    assert child[..|e + "/"|] == e + "/" by {
      if path == e {
        assert child[..|e| + 1] == path + "/";
      } else {
        assert child[..|path|] == path;
      }
    }
  }

  /** Matching is by whole path segments: `a` excludes `a` and `a/b` but not `ab`. */
  lemma ExclusionBySegment()
    ensures IsDirExcluded("a", {"a"})
    ensures IsDirExcluded("a/b", {"a"})
    ensures !IsDirExcluded("ab", {"a"})
    ensures !IsDirExcluded("a", {"a/b"})
  {
    assert StartsWith("a/b", "a" + "/");
    assert !StartsWith("ab", "a" + "/") by {
      assert "ab"[..2][1] == 'b';
    }
  }

  /**
   * The extension rule of the compiler: excluded when the list is
   * non-empty and holds the extension; an empty list excludes nothing.
   */
  function IsExtensionExcluded(ext: string, excluded: set<string>): (r: bool)
    ensures r <==> ext in excluded
  {
    excluded != {} && ext in excluded
  }

  /** Excluding `TXT`, `.txt` or `txt` excludes a file named `a.TXT`. */
  lemma ExtensionExclusionIgnoresCaseAndDot(name: string)
    requires name == "a.TXT"
    ensures ExtensionKey(name) == ".txt"
    ensures IsExtensionExcluded(ExtensionKey(name), ParseExtensions("TXT"))
    ensures IsExtensionExcluded(ExtensionKey(name), ParseExtensions(".txt"))
    ensures IsExtensionExcluded(ExtensionKey(name), ParseExtensions("txt"))
  {
    assert LastDot(name[..2]) == 1;
    assert LastDot(name[..3]) == 1;
    assert LastDot(name[..4]) == 1;
    assert LastDot(name) == 1;
    assert name[0] != '.';
    assert Extension(name) == ".TXT";
    assert Lower(".TXT") == ".txt";
    ExtensionSpellings();
  }
}

=== FILE: output.dfy ===
/**
 * The text blocks the exporters write: the header line that opens the
 * block of every exported file, and the concatenation of blocks.
 */
module Output {

  const HeaderPrefix := "--- RELATIVE PATH: "
  const HeaderSuffix := " ---\n"
  /** What closes the block of a file that was read, or of a read error. */
  const BlockEnd := "\n\n"

  /** The line that opens the block of the file at `path`. */
  function Header(path: string): string {
    HeaderPrefix + path + HeaderSuffix
  }

  /** The path can be read back from between the fixed text around it. */
  lemma HeaderFields(path: string)
    ensures var h := Header(path);
      && |h| == |path| + 24
      && h[..19] == HeaderPrefix && h[|h| - 5..] == HeaderSuffix
      && h[19..|h| - 5] == path
  {
    assert |HeaderPrefix| == 19 && |HeaderSuffix| == 5;
  }

  /** Different files get different headers. */
  lemma HeaderInjective(p: string, q: string)
    requires Header(p) == Header(q)
    ensures p == q
  {
    HeaderFields(p);
    HeaderFields(q);
  }

  /** The blocks written one after another, in order. */
  function Concat(blocks: seq<string>): (out: string)
    ensures blocks == [] ==> out == []
  {
    if blocks == [] then [] else Concat(blocks[..|blocks| - 1]) + blocks[|blocks| - 1]
  }

  /** Writing two runs of blocks in turn writes their concatenations in turn. */
  lemma {:induction false} ConcatAppend(a: seq<string>, b: seq<string>)
    ensures Concat(a + b) == Concat(a) + Concat(b)
    decreases |b|
  {
    if b == [] {
      assert a + b == a;
    } else {
      var n := |b| - 1;
      assert (a + b)[..|a + b| - 1] == a + b[..n];
      ConcatAppend(a, b[..n]);
    }
  }
}

=== FILE: path_export.dfy ===
/**
 * "Export Paths": the walk with the directory filter only, writing the
 * normalised relative path of every file it yields, one per line.
 */
module PathExport {
  import opened Text
  import opened Exclusions
  import opened Tree

  /** The paths written one per line, each followed by a newline. */
  function Lines(paths: seq<string>): (out: string)
    ensures paths == [] <==> out == []
  {
    if paths == [] then [] else paths[0] + "\n" + Lines(paths[1..])
  }

  /** The relative paths of the files the walk yields, in walk order. */
  function PathsOf(scan: seq<Located>): (paths: seq<string>)
    ensures |paths| == |scan|
    ensures forall i :: 0 <= i < |scan| ==> paths[i] == scan[i].path
  {
    seq(|scan|, i requires 0 <= i < |scan| => scan[i].path)
  }

  /** Writing one more path appends it and its newline. */
  lemma {:induction false} LinesAppend(paths: seq<string>, p: string)
    ensures Lines(paths + [p]) == Lines(paths) + p + "\n"
  {
    if paths == [] {
      assert [p][1..] == [];
    } else {
      assert (paths + [p])[1..] == paths[1..] + [p];
      LinesAppend(paths[1..], p);
    }
  }

  /**
   * Reading the output back: split at newlines it gives the paths in
   * order and then the empty text after the final newline, so there are
   * as many lines as paths. This holds when no path holds a newline.
   */
  lemma {:induction false} LinesSplit(paths: seq<string>)
    requires forall i :: 0 <= i < |paths| ==> '\n' !in paths[i]
    ensures Split(Lines(paths), '\n') == paths + [""]
  {
    if paths == [] {
    } else {
      var rest := Lines(paths[1..]);
      assert Lines(paths) == paths[0] + ['\n'] + rest;
      SplitAppend(paths[0], rest, '\n');
      SplitWithoutSeparator(paths[0], '\n');
      LinesSplit(paths[1..]);
      assert paths == [paths[0]] + paths[1..];
    }
  }

  /**
   * `_path_exporter_export_paths` without the output file: the lines
   * written, and the number of paths exported.
   */
  method ExportPaths(root: Node, dirText: string) returns (output: string, exported: nat)
    ensures output == Lines(PathsOf(Scan(root, ParseDirs(dirText))))
    ensures exported == |Scan(root, ParseDirs(dirText))|
  {
    output, exported := ExportScan(Scan(root, ParseDirs(dirText)));
  }

  method ExportScan(scan: seq<Located>) returns (output: string, exported: nat)
    ensures output == Lines(PathsOf(scan))
    ensures exported == |scan|
  {
    output := [];
    var count := 0;
    var i := 0;
    while i < |scan|
      invariant 0 <= i <= |scan|
      invariant output == Lines(PathsOf(scan[..i]))
      invariant count == i
    {
      assert PathsOf(scan[..i + 1]) == PathsOf(scan[..i]) + [scan[i].path];
      LinesAppend(PathsOf(scan[..i]), scan[i].path);
      output := output + scan[i].path + "\n";
      count := count + 1;
      i := i + 1;
    }
    assert scan[..i] == scan;
    exported := count;
  }

  /** The count equals the number of lines the output holds, when no path holds a newline. */
  lemma ExportedCountsLines(root: Node, dirText: string)
    requires forall i :: 0 <= i < |Scan(root, ParseDirs(dirText))| ==> '\n' !in Scan(root, ParseDirs(dirText))[i].path
    ensures |Split(Lines(PathsOf(Scan(root, ParseDirs(dirText)))), '\n')| == |Scan(root, ParseDirs(dirText))| + 1
  {
    LinesSplit(PathsOf(Scan(root, ParseDirs(dirText))));
  }

  /** No exported path lies below an excluded directory. */
  lemma ExportedAvoidsExcludedDirs(root: Node, dirText: string, i: nat, e: string)
    requires WellNamedTree(root)
    requires i < |PathsOf(Scan(root, ParseDirs(dirText)))| && e in ParseDirs(dirText) && e != []
    ensures !StartsWith(PathsOf(Scan(root, ParseDirs(dirText)))[i], e + "/")
  {
    ScanAvoidsExcludedDirs(root, ParseDirs(dirText), i, e);
  }
}

=== FILE: paths.dfy ===
/**
 * Relative-path handling shared by every mode: `normalize_path`, the
 * `os.path.join` the walk uses to name children, and `os.path.splitext`
 * on a file's base name.
 */
module Paths {
  import opened Text

  /** A path in the form `Normalize` produces: no backslash, no slash at either end. */
  predicate IsNormal(p: string) {
    '\\' !in p && (p == [] || (p[0] != '/' && p[|p| - 1] != '/'))
  }

  /**
   * `normalize_path`: every backslash becomes a slash, then leading and
   * trailing slashes are stripped.
   */
  function Normalize(path: string): (r: string)
    ensures IsNormal(r)
    ensures |r| <= |path|
  {
    Trim(Replace(path, '\\', '/'), IsSlash)
  }

  /** How many characters `Normalize` cuts from the front of `path`. */
  function LeadingCut(path: string): nat {
    |path| - |TrimLeft(Replace(path, '\\', '/'), IsSlash)|
  }

  /**
   * What `Normalize` keeps: the start of the path after its first
   * `LeadingCut` characters, with its backslashes replaced by slashes and
   * nothing else changed; only slashes and backslashes are cut from
   * either end.
   */
  lemma NormalizeKeepsMiddle(path: string)
    ensures LeadingCut(path) + |Normalize(path)| <= |path|
    ensures Normalize(path) <= Replace(path[LeadingCut(path)..], '\\', '/')
    ensures forall i :: 0 <= i < LeadingCut(path) ==> path[i] == '/' || path[i] == '\\'
    ensures forall i :: LeadingCut(path) + |Normalize(path)| <= i < |path| ==> path[i] == '/' || path[i] == '\\'
  {
    var q := Replace(path, '\\', '/');
    assert Normalize(path) == Trim(q, IsSlash) && |q| == |path|;
    TrimIsSlice(q, IsSlash);
    ReplaceSuffix(path, LeadingCut(path));
    ReplacedSlash(path, 0, LeadingCut(path));
    ReplacedSlash(path, LeadingCut(path) + |Normalize(path)|, |path|);
  }

  /** Replacing within a suffix gives the suffix of the replaced text. */
  lemma ReplaceSuffix(path: string, lo: nat)
    requires lo <= |path|
    ensures Replace(path, '\\', '/')[lo..] == Replace(path[lo..], '\\', '/')
  {
  }

  lemma ReplacedSlash(path: string, lo: nat, hi: nat)
    requires lo <= hi <= |path|
    requires forall i :: lo <= i < hi ==> IsSlash(Replace(path, '\\', '/')[i])
    ensures forall i :: lo <= i < hi ==> path[i] == '/' || path[i] == '\\'
  {
    var q := Replace(path, '\\', '/');
    forall i | lo <= i < hi ensures path[i] == '/' || path[i] == '\\' {
      assert IsSlash(q[i]);
    }
  }

  /** The normal paths are exactly the fixed points of `Normalize`. */
  lemma NormalizeFixedPoint(p: string)
    ensures Normalize(p) == p <==> IsNormal(p)
  {
    if IsNormal(p) {
      assert Replace(p, '\\', '/') == p;
    }
  }

  /** Normalising twice gives the same path as normalising once. */
  lemma NormalizeIdempotent(p: string)
    ensures Normalize(Normalize(p)) == Normalize(p)
  {
    NormalizeFixedPoint(Normalize(p));
  }

  lemma {:induction false} TrimLeftAppendDropped(s: string, c: char, drop: char -> bool)
    requires drop(c)
    ensures TrimLeft(s + [c], drop) == if TrimLeft(s, drop) == [] then [] else TrimLeft(s, drop) + [c]
  {
    if s != [] && drop(s[0]) {
      assert (s + [c])[1..] == s[1..] + [c];
      TrimLeftAppendDropped(s[1..], c, drop);
    } else if s == [] {
      assert TrimLeft([c], drop) == TrimLeft([], drop);
    }
  }

  lemma TrimAppendDropped(s: string, c: char, drop: char -> bool)
    requires drop(c)
    ensures Trim(s + [c], drop) == Trim(s, drop)
  {
    TrimLeftAppendDropped(s, c, drop);
    var t := TrimLeft(s, drop);
    if t != [] {
      assert (t + [c])[..|t + [c]| - 1] == t;
    }
  }

  /**
   * Paths that differ only in a surrounding slash or backslash normalise
   * to the same path.
   */
  lemma NormalizeSurroundingSeparator(p: string, sep: char)
    requires sep == '/' || sep == '\\'
    ensures Normalize([sep] + p) == Normalize(p)
    ensures Normalize(p + [sep]) == Normalize(p)
  {
    var q := Replace(p, '\\', '/');
    assert Replace([sep] + p, '\\', '/') == ['/'] + q;
    assert (['/'] + q)[1..] == q;
    assert Replace(p + [sep], '\\', '/') == q + ['/'];
    TrimAppendDropped(q, '/', IsSlash);
  }

  /** `os.path.join(dir, name)` for a normalised directory path. */
  function Join(dir: string, name: string): (r: string)
    ensures dir == [] ==> r == name
    ensures dir != [] ==> StartsWith(r, dir + "/") && r[|dir| + 1..] == name
  {
    if dir == [] then name else dir + "/" + name
  }

  /** A file or directory name as a directory listing can return it and `Join` keeps it apart. */
  predicate WellNamed(name: string) {
    name != [] && name != "." && '/' !in name && '\\' !in name
  }

  /** Some dot in `name` has a character other than a dot before it. */
  ghost predicate HasExtension(name: string) {
    exists k, j :: 0 <= j < k < |name| && name[k] == '.' && name[j] != '.'
  }

  /** The index of the last `.` in `s`, or -1 when there is none. */
  function LastDot(s: string): (i: int)
    ensures -1 <= i < |s|
    ensures i >= 0 ==> s[i] == '.'
    ensures forall k :: i < k < |s| ==> s[k] != '.'
  {
    if s == [] then -1
    else if s[|s| - 1] == '.' then |s| - 1
    else LastDot(s[..|s| - 1])
  }

  /**
   * `os.path.splitext(name)[1]` for a base name: the suffix from the last
   * dot on, unless only dots come before that dot (`.bashrc` has none).
   */
  function Extension(name: string): (ext: string)
    ensures |ext| <= |name|
    ensures ext != [] <==> HasExtension(name)
    ensures ext != [] ==> ext[0] == '.' && '.' !in ext[1..] && ext == name[|name| - |ext|..]
    ensures ext != [] ==> exists j :: 0 <= j < |name| - |ext| && name[j] != '.'
  {
    var i := LastDot(name);
    if i < 0 then []
    else if forall k :: 0 <= k < i ==> name[k] == '.' then []
    else
      var ext := name[i..];
      assert '.' !in ext[1..] by {
        forall m | 0 <= m < |ext[1..]| ensures ext[1..][m] != '.' {
          assert ext[1..][m] == name[i + 1 + m];
        }
      }
      ext
  }

  /** `os.path.splitext(name)[1].lower()`: the key both the survey and the compiler file a name under. */
  function ExtensionKey(name: string): (key: string)
    ensures |key| == |Extension(name)|
    ensures key == [] <==> Extension(name) == []
  {
    Lower(Extension(name))
  }

  /** A non-empty key is, like the suffix it comes from, a dot followed by dot-free text. */
  lemma ExtensionKeyShape(name: string)
    ensures var key := ExtensionKey(name);
      key != [] ==> key[0] == '.' && '.' !in key[1..]
  {
    var ext := Extension(name);
    var key := ExtensionKey(name);
    if key != [] {
      forall m | 0 <= m < |key[1..]| ensures key[1..][m] != '.' {
        assert key[1..][m] == LowerChar(ext[1..][m]);
      }
    }
  }
}

=== FILE: selective.dfy ===
/**
 * "Export Selected Files": the user lists relative paths one per line;
 * each listed path yields a skipped marker, the file's text, or a read
 * error, in list order, and two counters sum up the outcome.
 */
module Selective {
  import opened Text
  import opened Paths
  import opened Tree
  import opened Output

  const SkippedPrefix := "--- SKIPPED (Not a file or not found): "
  const SkippedSuffix := " ---\n\n"
  const ErrorOpen := "ERROR READING FILE ("
  const ErrorClose := "): "

  /** What one line contributes: nothing when it is blank, else its stripped and normalised text. */
  function Pick(line: string): (picked: seq<string>)
    ensures |picked| <= 1
  {
    if Strip(line) != [] then [Normalize(Strip(line))] else []
  }

  /** What `f` makes of each line, concatenated in line order. */
  function FlatMap(lines: seq<string>, f: string -> seq<string>): seq<string> {
    if lines == [] then [] else f(lines[0]) + FlatMap(lines[1..], f)
  }

  /** The paths kept from the lines, in line order. */
  function Selected(lines: seq<string>): seq<string> {
    FlatMap(lines, Pick)
  }

  /** The selection read from the text box: its stripped text, split into lines. */
  function Selection(text: string): seq<string> {
    Selected(SplitLines(Strip(text)))
  }

  lemma {:induction false} FlatMapAppend(a: seq<string>, b: seq<string>, f: string -> seq<string>)
    ensures FlatMap(a + b, f) == FlatMap(a, f) + FlatMap(b, f)
  {
    if a == [] {
      assert a + b == b;
    } else {
      assert (a + b)[0] == a[0] && (a + b)[1..] == a[1..] + b;
      FlatMapAppend(a[1..], b, f);
    }
  }

  lemma {:induction false} FlatMapIff(lines: seq<string>, f: string -> seq<string>, p: string)
    ensures p in FlatMap(lines, f) <==> exists j :: 0 <= j < |lines| && p in f(lines[j])
  {
    if lines != [] {
      var rest := lines[1..];
      FlatMapIff(rest, f, p);
      if j :| 0 <= j < |lines| && p in f(lines[j]) {
        if j > 0 {
          assert rest[j - 1] == lines[j];
        }
      }
      if j :| 0 <= j < |rest| && p in f(rest[j]) {
        assert lines[j + 1] == rest[j];
      }
    }
  }

  /** The selection keeps the order of the lines it comes from. */
  lemma SelectedAppend(a: seq<string>, b: seq<string>)
    ensures Selected(a + b) == Selected(a) + Selected(b)
  {
    FlatMapAppend(a, b, Pick);
  }

  /**
   * Lines are taken in text order: the first line's pick comes before
   * everything selected from the text after its line break.
   */
  lemma SelectedFirstLine(a: string, c: char, b: string)
    requires forall k :: 0 <= k < |a| ==> !IsLineBreak(a[k])
    requires IsLineBreak(c) && !(c == '\r' && b != [] && b[0] == '\n')
    ensures Selected(SplitLines(a + [c] + b)) == Pick(a) + Selected(SplitLines(b))
  {
    SplitLinesBreak(a, c, b);
    SelectedAppend([a], SplitLines(b));
    assert Selected([a]) == Pick(a) by {
      assert FlatMap([a][1..], Pick) == [];
    }
  }

  /**
   * A path is selected exactly when some line is not blank and strips
   * and normalises to it; every selected path is in normal form.
   */
  lemma SelectedIff(lines: seq<string>, p: string)
    ensures p in Selected(lines) <==>
      exists j :: 0 <= j < |lines| && Strip(lines[j]) != [] && p == Normalize(Strip(lines[j]))
    ensures p in Selected(lines) ==> IsNormal(p)
  {
    FlatMapIff(lines, Pick, p);
  }

  /**
   * Text that is not blank selects at least one path: its first
   * character is not whitespace, so it is no line break either, and the
   * line holding it is not blank.
   */
  lemma SelectionNonEmpty(text: string)
    requires Strip(text) != []
    ensures Selection(text) != []
  {
    var raw := Strip(text);
    var lines := SplitLines(raw);
    assert !IsSpace(raw[0]);
    SplitLinesKeeps(raw, 0);
    var j :| 0 <= j < |lines| && raw[0] in lines[j];
    var k :| 0 <= k < |lines[j]| && lines[j][k] == raw[0];
    SelectedIff(lines, Normalize(Strip(lines[j])));
  }

  /** The block for a path the root does not hold as a file. */
  function SkippedBlock(path: string): string {
    SkippedPrefix + path + SkippedSuffix
  }

  /** The block for a listed path: skipped, its text, or its read error naming the path. */
  function EntryBlock(path: string, files: map<string, ReadOutcome>): string {
    if path !in files then SkippedBlock(path)
    else
      match files[path]
      case Readable(text) => Header(path) + text + BlockEnd
      case ReadFailure(message) => Header(path) + ErrorOpen + path + ErrorClose + message + BlockEnd
  }

  /** Reference: the blocks of the selection, in selection order. */
  function EntryBlocks(selection: seq<string>, files: map<string, ReadOutcome>): (blocks: seq<string>)
    ensures |blocks| == |selection|
  {
    if selection == [] then []
    else EntryBlocks(selection[..|selection| - 1], files) + [EntryBlock(selection[|selection| - 1], files)]
  }

  /** Whether a listed path is a file that reads. */
  predicate Succeeds(path: string, files: map<string, ReadOutcome>) {
    path in files && files[path].Readable?
  }

  /** How many listed paths were written with their text. */
  function Processed(selection: seq<string>, files: map<string, ReadOutcome>): (n: nat)
    ensures n <= |selection|
  {
    if selection == [] then 0
    else Processed(selection[..|selection| - 1], files) + (if Succeeds(selection[|selection| - 1], files) then 1 else 0)
  }

  /** How many listed paths were skipped or failed to read. */
  function Errors(selection: seq<string>, files: map<string, ReadOutcome>): nat {
    if selection == [] then 0
    else Errors(selection[..|selection| - 1], files) + (if Succeeds(selection[|selection| - 1], files) then 0 else 1)
  }

  /** Every listed path is counted once, as processed or as an error. */
  /** One listed path is counted as processed exactly when it succeeds, and as an error otherwise. */
  lemma SucceedsCounted(path: string, files: map<string, ReadOutcome>)
    ensures Succeeds(path, files) <==> Processed([path], files) == 1
    ensures Succeeds(path, files) <==> Errors([path], files) == 0
  {
    assert [path][..0] == [];
  }

  lemma {:induction false} ProcessedAndErrors(selection: seq<string>, files: map<string, ReadOutcome>)
    ensures Processed(selection, files) + Errors(selection, files) == |selection|
  {
    if selection != [] {
      ProcessedAndErrors(selection[..|selection| - 1], files);
    }
  }

  /** The blocks and both counters of a selection in two parts are those of each part, in turn. */
  lemma {:induction false} EntryConcat(a: seq<string>, b: seq<string>, files: map<string, ReadOutcome>)
    ensures EntryBlocks(a + b, files) == EntryBlocks(a, files) + EntryBlocks(b, files)
    ensures Processed(a + b, files) == Processed(a, files) + Processed(b, files)
    ensures Errors(a + b, files) == Errors(a, files) + Errors(b, files)
    decreases |b|
  {
    if b == [] {
      assert a + b == a;
    } else {
      var n := |b| - 1;
      assert (a + b)[..|a + b| - 1] == a + b[..n];
      assert (a + b)[|a + b| - 1] == b[n];
      EntryConcat(a, b[..n], files);
    }
  }

  /** The outcomes of the export: the two early returns, or the written text with its counters. */
  datatype Outcome =
    | NoFilesProvided
    | NoValidPaths
    | Exported(output: string, processed: nat, errors: nat)

  /**
   * `_selective_exporter_export_files` without the output file. `files`
   * maps the relative paths that name a regular file under the root to
   * what reading that file gives.
   */
  function Export(text: string, files: map<string, ReadOutcome>): (r: Outcome)
    ensures r.NoFilesProvided? <==> Strip(text) == []
    ensures r.Exported? ==> r.processed + r.errors == |Selection(text)|
  {
    if Strip(text) == [] then NoFilesProvided
    else
      var selection := Selection(text);
      if selection == [] then NoValidPaths
      else
        ProcessedAndErrors(selection, files);
        Exported(Concat(EntryBlocks(selection, files)), Processed(selection, files), Errors(selection, files))
  }

  /** The "no valid paths" return cannot be reached. */
  lemma NoValidPathsUnreachable(text: string, files: map<string, ReadOutcome>)
    ensures Export(text, files) != NoValidPaths
  {
    if Strip(text) != [] {
      SelectionNonEmpty(text);
    }
  }

  /** The export as the source runs it: the early returns, then one pass over the selection. */
  method ExportFiles(text: string, files: map<string, ReadOutcome>) returns (r: Outcome)
    ensures r == Export(text, files)
  {
    var raw := Strip(text);
    if raw == [] {
      return NoFilesProvided;
    }
    var selection := Selected(SplitLines(raw));
    if selection == [] {
      return NoValidPaths;
    }
    var output, processed, errors := ExportSelection(selection, files);
    ProcessedAndErrors(selection, files);
    r := Exported(output, processed, errors);
  }

  method ExportSelection(selection: seq<string>, files: map<string, ReadOutcome>)
    returns (output: string, processed: nat, errors: nat)
    ensures output == Concat(EntryBlocks(selection, files))
    ensures processed == Processed(selection, files) && errors == Errors(selection, files)
  {
    output := [];
    var good, bad := 0, 0;
    var i := 0;
    while i < |selection|
      invariant 0 <= i <= |selection|
      invariant output == Concat(EntryBlocks(selection[..i], files))
      invariant good == Processed(selection[..i], files) && bad == Errors(selection[..i], files)
    {
      EntryStep(selection, i, files);
      output, good, bad := ExportEntry(output, good, bad, selection[i], files);
      i := i + 1;
    }
    assert selection[..i] == selection;
    processed, errors := good, bad;
  }

  /** One listed path: its block written, and one of the two counters raised. */
  method ExportEntry(output: string, good: int, bad: int, path: string, files: map<string, ReadOutcome>)
    returns (output': string, good': int, bad': int)
    ensures output' == output + EntryBlock(path, files)
    ensures good' == good + (if Succeeds(path, files) then 1 else 0)
    ensures bad' == bad + (if Succeeds(path, files) then 0 else 1)
  {
    if path !in files {
      return output + SkippedBlock(path), good, bad + 1;
    }
    output' := output + Header(path);
    match files[path] {
      case Readable(text) =>
        output' := output' + text + BlockEnd;
        assert output' == output + (Header(path) + text + BlockEnd);
        good', bad' := good + 1, bad;
      case ReadFailure(message) =>
        output' := output' + ErrorOpen + path + ErrorClose + message + BlockEnd;
        assert output' == output + (Header(path) + ErrorOpen + path + ErrorClose + message + BlockEnd);
        good', bad' := good, bad + 1;
    }
  }

  lemma EntryStep(selection: seq<string>, i: nat, files: map<string, ReadOutcome>)
    requires i < |selection|
    ensures Concat(EntryBlocks(selection[..i + 1], files)) == Concat(EntryBlocks(selection[..i], files)) + EntryBlock(selection[i], files)
    ensures Processed(selection[..i + 1], files) == Processed(selection[..i], files) + (if Succeeds(selection[i], files) then 1 else 0)
    ensures Errors(selection[..i + 1], files) == Errors(selection[..i], files) + (if Succeeds(selection[i], files) then 0 else 1)
  {
    assert selection[..i + 1][..i] == selection[..i];
  }

  /**
   * Each kind of block gives back the path it was written for, and the
   * text or message, from between its fixed parts; a skipped block and a
   * header block differ from their fifth character on.
   */
  lemma EntryBlockRoundTrip(path: string, files: map<string, ReadOutcome>)
    ensures var b := EntryBlock(path, files); var h := |path| + 24;
      && (path !in files ==> |b| == |path| + 45 && b[39..|b| - 6] == path && b[4] == 'S')
      && (path in files ==> |b| >= h + 2 && b[19..h - 5] == path && b[4] == 'R' && b[|b| - 2..] == BlockEnd)
      && (Succeeds(path, files) ==> b[h..|b| - 2] == files[path].text)
      && (path in files && files[path].ReadFailure? ==>
            b[h..h + 20] == ErrorOpen && b[h + 20..h + 20 + |path|] == path
            && b[h + 20 + |path|..h + 23 + |path|] == ErrorClose
            && b[h + 23 + |path|..|b| - 2] == files[path].message)
  {
    var b := EntryBlock(path, files);
    assert |SkippedPrefix| == 39 && |SkippedSuffix| == 6;
    assert |ErrorOpen| == 20 && |ErrorClose| == 3 && |BlockEnd| == 2;
    if path in files {
      var h := Header(path);
      HeaderFields(path);
      assert b[..|h|] == h;
      assert b[4] == h[..19][4] == 'R';
      assert b[19..|h| - 5] == h[19..|h| - 5];
    } else {
      assert b[4] == SkippedPrefix[4] == 'S';
    }
  }
}

=== FILE: survey.dfy ===
/**
 * "Get All Extensions": a walk that counts every file in a non-excluded
 * directory and keeps, per lower-cased extension, the first three paths
 * met in walk order.
 */
module Survey {
  import opened Text
  import opened Paths
  import opened Exclusions
  import opened Tree

  /** How many example paths the survey keeps per extension. */
  const MaxExamples := 3

  /** A scanned file as the survey sees it: its path and its key. */
  datatype Sighting = Sighting(path: string, key: string)

  function Sightings(scan: seq<Located>): (s: seq<Sighting>)
    ensures |s| == |scan|
    ensures forall i :: 0 <= i < |scan| ==> s[i] == Sighting(scan[i].path, ExtensionKey(scan[i].file.name))
  {
    seq(|scan|, i requires 0 <= i < |scan| => Sighting(scan[i].path, ExtensionKey(scan[i].file.name)))
  }

  /** Reference: the paths of the sightings with key `key`, in scan order. */
  function PathsWithKey(sightings: seq<Sighting>, key: string): (paths: seq<string>)
    ensures |paths| <= |sightings|
  {
    if sightings == [] then []
    else
      var last := sightings[|sightings| - 1];
      PathsWithKey(sightings[..|sightings| - 1], key) + (if last.key == key then [last.path] else [])
  }

  /** The first `n` elements of `s`, or all of them when there are fewer. */
  function Take(s: seq<string>, n: nat): (t: seq<string>)
    ensures |t| <= n && |t| <= |s| && t == s[..|t|]
    ensures |s| <= n ==> t == s
    ensures |s| >= n ==> |t| == n
  {
    if |s| <= n then s else s[..n]
  }

  lemma TakeAppend(s: seq<string>, x: string, n: nat)
    ensures Take(s + [x], n) == if |s| < n then s + [x] else Take(s, n)
  {
    if |s| >= n {
      assert (s + [x])[..n] == s[..n];
    }
  }

  /** What the survey has gathered from `sightings`: the keys met, each with its first examples. */
  ghost predicate Gathered(index: map<string, seq<string>>, sightings: seq<Sighting>) {
    && (forall key :: key in index <==> key != [] && PathsWithKey(sightings, key) != [])
    && (forall key :: key in index ==> index[key] == Take(PathsWithKey(sightings, key), MaxExamples))
  }

  /**
   * One file's effect on the index: a file with an extension opens the
   * entry for its key if there is none, then adds its path while the
   * entry holds fewer than three.
   */
  function Record(index: map<string, seq<string>>, s: Sighting): map<string, seq<string>> {
    if s.key == [] then index
    else
      var kept := if s.key in index then index[s.key] else [];
      if |kept| < MaxExamples then index[s.key := kept + [s.path]] else index[s.key := kept]
  }

  lemma PathsWithKeyAppend(sightings: seq<Sighting>, s: Sighting, key: string)
    ensures PathsWithKey(sightings + [s], key)
      == PathsWithKey(sightings, key) + (if s.key == key then [s.path] else [])
  {
    assert (sightings + [s])[..|sightings|] == sightings;
  }

  /** Recording the next sighting keeps the index equal to what the longer scan gathers. */
  lemma RecordGathers(index: map<string, seq<string>>, sightings: seq<Sighting>, s: Sighting)
    requires Gathered(index, sightings)
    ensures Gathered(Record(index, s), sightings + [s])
  {
    forall k
      ensures k in Record(index, s) <==> k != [] && PathsWithKey(sightings + [s], k) != []
      ensures k in Record(index, s) ==> Record(index, s)[k] == Take(PathsWithKey(sightings + [s], k), MaxExamples)
    {
      PathsWithKeyAppend(sightings, s, k);
      if k == s.key && k != [] {
        var before := PathsWithKey(sightings, k);
        var kept := if k in index then index[k] else [];
        assert kept == Take(before, MaxExamples);
        TakeAppend(before, s.path, MaxExamples);
      }
    }
  }

  /**
   * `_compiler_get_all_extensions` without its report: every file the
   * walk yields is counted; a file with an extension files its path
   * under the lower-cased extension while fewer than three are kept.
   */
  method SurveyExtensions(root: Node, dirText: string) returns (index: map<string, seq<string>>, scanned: nat)
    ensures scanned == |Scan(root, ParseDirs(dirText))|
    ensures Gathered(index, Sightings(Scan(root, ParseDirs(dirText))))
    ensures [] !in index
    ensures forall key :: key in index ==> 1 <= |index[key]| <= MaxExamples
  {
    index, scanned := SurveyScan(Scan(root, ParseDirs(dirText)));
  }

  /** The survey over the files the walk yields, in walk order. */
  method SurveyScan(scan: seq<Located>) returns (index: map<string, seq<string>>, scanned: nat)
    ensures scanned == |scan|
    ensures Gathered(index, Sightings(scan))
  {
    ghost var sightings := Sightings(scan);
    index := map[];
    var count := 0;
    var i := 0;
    while i < |scan|
      invariant 0 <= i <= |scan|
      invariant count == i
      invariant Gathered(index, sightings[..i])
    {
      index := SurveyFile(index, sightings, i, scan[i]);
      count := count + 1;
      i := i + 1;
    }
    assert sightings[..i] == sightings;
    scanned := count;
  }

  /** One scanned file: its key computed, then recorded. */
  method SurveyFile(index: map<string, seq<string>>, ghost sightings: seq<Sighting>, i: nat, l: Located)
    returns (next: map<string, seq<string>>)
    requires i < |sightings| && sightings[i] == Sighting(l.path, ExtensionKey(l.file.name))
    requires Gathered(index, sightings[..i])
    ensures Gathered(next, sightings[..i + 1])
  {
    var ext := ExtensionKey(l.file.name);
    next := Note(index, sightings[..i], l.path, ext);
    assert sightings[..i + 1] == sightings[..i] + [sightings[i]];
  }

  /**
   * The loop body of the survey for one file with path `path` and key
   * `ext`: an index gathered over `sightings` becomes the index gathered
   * over `sightings` and this file.
   */
  method Note(index: map<string, seq<string>>, ghost sightings: seq<Sighting>, path: string, ext: string)
    returns (next: map<string, seq<string>>)
    requires Gathered(index, sightings)
    ensures Gathered(next, sightings + [Sighting(path, ext)])
  {
    next := index;
    if ext != [] {
      if ext !in next {
        next := next[ext := []];
      }
      if |next[ext]| < MaxExamples {
        next := next[ext := next[ext] + [path]];
      }
    }
    assert next == Record(index, Sighting(path, ext));
    RecordGathers(index, sightings, Sighting(path, ext));
  }
}

=== FILE: text.dfy ===
/**
 * The handful of Python `str` operations the export engine is built from,
 * written over `string` (a sequence of Unicode scalar values).
 */
module Text {

  /** Python's `str.isspace()`: the characters `str.strip()` removes. */
  predicate IsSpace(c: char) {
    || ('\U{9}' <= c <= '\U{D}')
    || ('\U{1C}' <= c <= '\U{20}')
    || c == '\U{85}' || c == '\U{A0}' || c == '\U{1680}'
    || ('\U{2000}' <= c <= '\U{200A}')
    || c == '\U{2028}' || c == '\U{2029}' || c == '\U{202F}'
    || c == '\U{205F}' || c == '\U{3000}'
  }

  /** The characters at which Python's `str.splitlines()` ends a line. */
  predicate IsLineBreak(c: char) {
    || c == '\n' || c == '\r' || c == '\U{B}' || c == '\U{C}'
    || ('\U{1C}' <= c <= '\U{1E}')
    || c == '\U{85}' || c == '\U{2028}' || c == '\U{2029}'
  }

  /** Every character that ends a line is whitespace to `strip()`. */
  lemma LineBreakIsSpace(c: char)
    ensures IsLineBreak(c) ==> IsSpace(c)
  {
  }

  predicate IsSlash(c: char) { c == '/' }

  predicate IsDot(c: char) { c == '.' }

  predicate IsUpper(c: char) { 'A' <= c <= 'Z' }

  /** Case mapping of `str.lower()`, restricted to ASCII letters. */
  function LowerChar(c: char): (l: char)
    ensures !IsUpper(l)
  {
    if IsUpper(c) then (c as int + 32) as char else c
  }

  function Lower(s: string): (r: string)
    ensures |r| == |s|
    ensures forall i :: 0 <= i < |s| ==> r[i] == LowerChar(s[i])
  {
    if s == [] then [] else [LowerChar(s[0])] + Lower(s[1..])
  }

  /** Case mapping of `str.upper()`, restricted to ASCII letters. */
  function UpperChar(c: char): char {
    if 'a' <= c <= 'z' then (c as int - 32) as char else c
  }

  function Upper(s: string): (r: string)
    ensures |r| == |s|
    ensures forall i :: 0 <= i < |s| ==> r[i] == UpperChar(s[i])
  {
    seq(|s|, i requires 0 <= i < |s| => UpperChar(s[i]))
  }

  /** `s.replace(from, to)` for single characters. */
  function Replace(s: string, from: char, to: char): (r: string)
    ensures |r| == |s|
    ensures from != to ==> from !in r
    ensures forall i :: 0 <= i < |s| ==> r[i] == (if s[i] == from then to else s[i])
  {
    seq(|s|, i requires 0 <= i < |s| => if s[i] == from then to else s[i])
  }

  /** `s.lstrip(chars)`: the suffix left after dropping every leading `drop` character. */
  function TrimLeft(s: string, drop: char -> bool): (r: string)
    ensures |r| <= |s| && r == s[|s| - |r|..]
    ensures forall i :: 0 <= i < |s| - |r| ==> drop(s[i])
    ensures r == [] || !drop(r[0])
  {
    if s != [] && drop(s[0]) then
      var r := TrimLeft(s[1..], drop);
      assert s[1..][|s| - 1 - |r|..] == s[|s| - |r|..];
      assert forall i :: 1 <= i < |s| - |r| ==> s[i] == s[1..][i - 1];
      r
    else s
  }

  /** `s.rstrip(chars)`: the prefix left after dropping every trailing `drop` character. */
  function TrimRight(s: string, drop: char -> bool): (r: string)
    ensures |r| <= |s| && r == s[..|r|]
    ensures forall i :: |r| <= i < |s| ==> drop(s[i])
    ensures r == [] || !drop(r[|r| - 1])
  {
    if s != [] && drop(s[|s| - 1]) then
      var r := TrimRight(s[..|s| - 1], drop);
      assert s[..|s| - 1][..|r|] == s[..|r|];
      assert forall i :: |r| <= i < |s| - 1 ==> s[i] == s[..|s| - 1][i];
      r
    else s
  }

  /** `s.strip(chars)`. */
  function Trim(s: string, drop: char -> bool): (r: string)
    ensures r == [] || (!drop(r[0]) && !drop(r[|r| - 1]))
    ensures r == [] ==> forall i :: 0 <= i < |s| ==> drop(s[i])
  {
    TrimRight(TrimLeft(s, drop), drop)
  }

  /**
   * What `strip` keeps is a middle slice of the input: a prefix of what
   * `lstrip` left, with only droppable characters before it (by
   * `TrimLeft`) and after it, and (by `Trim`'s own contract) neither
   * starting nor ending with one.
   */
  lemma TrimIsSlice(s: string, drop: char -> bool)
    ensures Trim(s, drop) <= s[|s| - |TrimLeft(s, drop)|..]
    ensures forall i :: 0 <= i < |s| - |TrimLeft(s, drop)| ==> drop(s[i])
    ensures forall i :: |s| - |TrimLeft(s, drop)| + |Trim(s, drop)| <= i < |s| ==> drop(s[i])
  {
    var l := TrimLeft(s, drop);
    var r := Trim(s, drop);
    assert r == TrimRight(l, drop);
    TrimmedTail(s, l, r, drop);
  }

  lemma TrimmedTail(s: string, l: string, r: string, drop: char -> bool)
    requires |l| <= |s| && l == s[|s| - |l|..]
    requires r <= l && forall i :: |r| <= i < |l| ==> drop(l[i])
    ensures forall i :: |s| - |l| + |r| <= i < |s| ==> drop(s[i])
  {
    forall i | |s| - |l| + |r| <= i < |s| ensures drop(s[i]) {
      assert s[i] == l[i - (|s| - |l|)];
    }
  }

  /** Putting a kept character in front commutes with `rstrip`. */
  lemma {:induction false} TrimRightCons(c: char, t: string, drop: char -> bool)
    requires !drop(c)
    ensures TrimRight([c] + t, drop) == [c] + TrimRight(t, drop)
    decreases |t|
  {
    var s := [c] + t;
    if t != [] && drop(t[|t| - 1]) {
      assert s[..|s| - 1] == [c] + t[..|t| - 1];
      TrimRightCons(c, t[..|t| - 1], drop);
    }
  }

  /** A character map that keeps droppable and kept characters apart commutes with `lstrip`. */
  lemma {:induction false} UpperTrimLeft(s: string, drop: char -> bool)
    requires forall i :: 0 <= i < |s| ==> drop(UpperChar(s[i])) == drop(s[i])
    ensures TrimLeft(Upper(s), drop) == Upper(TrimLeft(s, drop))
  {
    if s != [] && drop(s[0]) {
      assert Upper(s)[1..] == Upper(s[1..]);
      UpperTrimLeft(s[1..], drop);
    }
  }

  lemma {:induction false} UpperTrimRight(s: string, drop: char -> bool)
    requires forall i :: 0 <= i < |s| ==> drop(UpperChar(s[i])) == drop(s[i])
    ensures TrimRight(Upper(s), drop) == Upper(TrimRight(s, drop))
  {
    if s != [] && drop(s[|s| - 1]) {
      assert Upper(s)[..|s| - 1] == Upper(s[..|s| - 1]);
      UpperTrimRight(s[..|s| - 1], drop);
    }
  }

  /** Lower-casing forgets an upper-casing that came before it. */
  lemma LowerUpper(s: string)
    ensures Lower(Upper(s)) == Lower(s)
  {
    forall i | 0 <= i < |s| ensures Lower(Upper(s))[i] == Lower(s)[i] {
      assert Upper(s)[i] == UpperChar(s[i]);
    }
  }

  /** `s.strip()` with no argument. */
  function Strip(s: string): string {
    Trim(s, IsSpace)
  }

  /** `s.startswith(prefix)`. */
  predicate StartsWith(s: string, prefix: string) {
    |prefix| <= |s| && s[..|prefix|] == prefix
  }

  /** A text starts with a prefix exactly when it is that prefix followed by the rest of the text. */
  lemma StartsWithIff(s: string, prefix: string, rest: string)
    ensures StartsWith(prefix + rest, prefix)
    ensures StartsWith(s, prefix) ==> s == prefix + s[|prefix|..]
  {
    assert (prefix + rest)[..|prefix|] == prefix;
    if StartsWith(s, prefix) {
      assert s == s[..|prefix|] + s[|prefix|..];
    }
  }

  /** `sep.join(parts)`. */
  function JoinWith(parts: seq<string>, sep: char): string
    requires |parts| >= 1
  {
    if |parts| == 1 then parts[0] else parts[0] + [sep] + JoinWith(parts[1..], sep)
  }

  /**
   * `s.split(sep)` with an explicit separator: never empty, and the
   * pieces, rejoined with the separator, give back `s`.
   */
  function Split(s: string, sep: char): (parts: seq<string>)
    ensures |parts| >= 1
    ensures forall i :: 0 <= i < |parts| ==> sep !in parts[i]
    ensures JoinWith(parts, sep) == s
  {
    if s == [] then [""]
    else
      var rest := Split(s[1..], sep);
      if s[0] == sep then [""] + rest
      else
        var parts := [[s[0]] + rest[0]] + rest[1..];
        assert parts[1..] == rest[1..];
        assert s == [s[0]] + s[1..];
        parts
  }

  /** Splitting at a separator splits the pieces of the two sides apart. */
  lemma {:induction false} SplitAppend(a: string, b: string, sep: char)
    ensures Split(a + [sep] + b, sep) == Split(a, sep) + Split(b, sep)
  {
    if a == [] {
      assert a + [sep] + b == [sep] + b;
      assert ([sep] + b)[1..] == b;
    } else {
      assert (a + [sep] + b)[1..] == a[1..] + [sep] + b;
      SplitAppend(a[1..], b, sep);
    }
  }

  /**
   * `s.splitlines()`: lines end at any line-break character, `\r\n` ends
   * one line, and a final line-break does not start an empty line.
   */
  function SplitLines(s: string): (lines: seq<string>)
    ensures forall j, k :: 0 <= j < |lines| && 0 <= k < |lines[j]| ==> !IsLineBreak(lines[j][k])
    ensures s == [] <==> lines == []
    decreases |s|
  {
    if s == [] then []
    else if IsLineBreak(s[0]) then
      var rest := if s[0] == '\r' && |s| > 1 && s[1] == '\n' then s[2..] else s[1..];
      [""] + SplitLines(rest)
    else
      var tail := SplitLines(s[1..]);
      if tail == [] then [[s[0]]] else [[s[0]] + tail[0]] + tail[1..]
  }

  /** Every character of `s` that does not end a line lands in some line. */
  lemma {:induction false} SplitLinesKeeps(s: string, i: nat)
    requires i < |s| && !IsLineBreak(s[i])
    ensures exists j :: 0 <= j < |SplitLines(s)| && s[i] in SplitLines(s)[j]
    decreases |s|
  {
    var lines := SplitLines(s);
    if IsLineBreak(s[0]) {
      var rest := if s[0] == '\r' && |s| > 1 && s[1] == '\n' then s[2..] else s[1..];
      var skip := |s| - |rest|;
      assert lines == [""] + SplitLines(rest);
      assert i >= skip;
      assert s[i] == rest[i - skip];
      SplitLinesKeeps(rest, i - skip);
      var j :| 0 <= j < |SplitLines(rest)| && rest[i - skip] in SplitLines(rest)[j];
      assert lines[j + 1] == SplitLines(rest)[j];
    } else if i == 0 {
      assert s[0] in lines[0];
    } else {
      var tail := SplitLines(s[1..]);
      assert s[i] == s[1..][i - 1];
      SplitLinesKeeps(s[1..], i - 1);
      var j :| 0 <= j < |tail| && s[1..][i - 1] in tail[j];
      if j == 0 {
        assert lines[0] == [s[0]] + tail[0];
        assert s[i] in lines[0];
      } else {
        assert lines[j] == tail[j];
      }
    }
  }

  /** A line that holds no break character is one line of its own. */
  lemma {:induction false} SplitLinesSingle(a: string)
    requires a != [] && forall k :: 0 <= k < |a| ==> !IsLineBreak(a[k])
    ensures SplitLines(a) == [a]
    decreases |a|
  {
    assert !IsLineBreak(a[0]);
    if |a| == 1 {
      assert SplitLines(a[1..]) == [] && a == [a[0]];
    } else {
      SplitLinesSingle(a[1..]);
      assert a == [a[0]] + a[1..];
    }
  }

  /**
   * The text up to the first break is the first line, and the lines after
   * it follow in order. A `\r` directly followed by `\n` is the one case
   * where the break is two characters long; `SplitLinesCrLf` covers it.
   */
  lemma {:induction false} SplitLinesBreak(a: string, c: char, b: string)
    requires forall k :: 0 <= k < |a| ==> !IsLineBreak(a[k])
    requires IsLineBreak(c) && !(c == '\r' && b != [] && b[0] == '\n')
    ensures SplitLines(a + [c] + b) == [a] + SplitLines(b)
    decreases |a|
  {
    var s := a + [c] + b;
    if a == [] {
      assert s == [c] + b && s[1..] == b;
    } else {
      assert s[0] == a[0] && s[1..] == a[1..] + [c] + b;
      SplitLinesBreak(a[1..], c, b);
      assert [a[0]] + a[1..] == a;
    }
  }

  /** A `\r\n` pair ends one line, and the lines after it follow in order. */
  lemma {:induction false} SplitLinesCrLf(a: string, b: string)
    requires forall k :: 0 <= k < |a| ==> !IsLineBreak(a[k])
    ensures SplitLines(a + "\r\n" + b) == [a] + SplitLines(b)
    decreases |a|
  {
    var s := a + "\r\n" + b;
    if a == [] {
      assert s == "\r\n" + b && s[2..] == b;
    } else {
      assert s[0] == a[0] && s[1..] == a[1..] + "\r\n" + b;
      SplitLinesCrLf(a[1..], b);
      assert [a[0]] + a[1..] == a;
    }
  }

  lemma {:induction false} SplitWithoutSeparator(s: string, sep: char)
    requires sep !in s
    ensures Split(s, sep) == [s]
  {
    if s != [] {
      SplitWithoutSeparator(s[1..], sep);
      assert s == [s[0]] + s[1..];
    }
  }

  /** A string that `strip()` empties consists of whitespace only. */
  lemma StripEmptyAllSpace(s: string, i: nat)
    requires Strip(s) == [] && i < |s|
    ensures IsSpace(s[i])
  {
  }
}

=== FILE: tree.dfy ===
/**
 * The top-down directory walk all three tree modes repeat: `os.walk`
 * over an abstract directory tree, with excluded subdirectories pruned
 * before descent and the visited directory checked again on arrival.
 */
module Tree {
  import opened Text
  import opened Paths
  import opened Exclusions

  /** What reading a file yields: its text, or the message of the exception the read raised. */
  datatype ReadOutcome = Readable(text: string) | ReadFailure(message: string)

  datatype FileEntry = FileEntry(name: string, read: ReadOutcome)

  /**
   * A directory as the walk meets it: its name in its parent, then the
   * files and the subdirectories it lists, each in listing order. A
   * directory that cannot be listed is yielded by nothing (the walk has
   * no error callback), so it carries only its name. The root's own name
   * is never used.
   */
  datatype Node =
    | Dir(name: string, files: seq<FileEntry>, subdirs: seq<Node>)
    | Unlistable(name: string)

  /** One step of the walk: the current directory's normalised relative path and the files it lists. */
  datatype Visit = Visit(rel: string, files: seq<FileEntry>)

  /** A file handed to an exporter: its directory's relative path, its own normalised relative path, and the file. */
  datatype Located = Located(dir: string, path: string, file: FileEntry)

  /** `os.path.relpath` of a subdirectory, given its parent's (`.` for the root itself). */
  function RawJoin(raw: string, name: string): string {
    if raw == "." then name else raw + "/" + name
  }

  /** The walk's current directory path: the normalised relpath, with `.` read as the root `""`. */
  function CurrentRel(raw: string): (r: string)
    ensures IsNormal(r) && r != "."
  {
    var n := Normalize(raw);
    if n == "." then "" else n
  }

  /** The path a subdirectory is tested against before the walk descends into it. */
  function ChildPath(current: string, name: string): (r: string)
    ensures IsNormal(r)
  {
    Normalize(Join(current, name))
  }

  /**
   * The walk from `node`, whose relpath is `raw`: the node's own visit,
   * then, in listing order, the walks of the subdirectories whose
   * `ChildPath` is not excluded. Excluded subdirectories are never
   * entered, so nothing below them is visited.
   */
  function Walk(node: Node, raw: string, excluded: set<string>): (visits: seq<Visit>)
    ensures node.Dir? ==> |visits| >= 1 && visits[0] == Visit(CurrentRel(raw), node.files)
    ensures node.Unlistable? ==> visits == []
  {
    match node
    case Unlistable(_) => []
    case Dir(_, files, subdirs) =>
      var current := CurrentRel(raw);
      [Visit(current, files)] + WalkChildren(subdirs, raw, current, excluded)
  }

  function WalkChildren(children: seq<Node>, raw: string, current: string, excluded: set<string>): seq<Visit>
  {
    if children == [] then []
    else
      var child := children[0];
      var rest := WalkChildren(children[1..], raw, current, excluded);
      if IsDirExcluded(ChildPath(current, child.name), excluded) then rest
      else Walk(child, RawJoin(raw, child.name), excluded) + rest
  }

  /** The files of one directory, each located at the normalised join of the directory path and its name. */
  function FilesAt(dir: string, files: seq<FileEntry>): (located: seq<Located>)
    ensures |located| == |files|
    ensures forall i :: 0 <= i < |files| ==>
      located[i] == Located(dir, Normalize(Join(dir, files[i].name)), files[i])
  {
    if files == [] then []
    else [Located(dir, Normalize(Join(dir, files[0].name)), files[0])] + FilesAt(dir, files[1..])
  }

  /**
   * The files the exporters see, in walk order: a visited directory that
   * matches the exclusion rule on arrival contributes nothing.
   */
  function Listed(visits: seq<Visit>, excluded: set<string>): (located: seq<Located>)
    ensures forall i :: 0 <= i < |located| ==> !IsDirExcluded(located[i].dir, excluded)
    ensures forall i :: 0 <= i < |located| ==>
      located[i].path == Normalize(Join(located[i].dir, located[i].file.name))
  {
    if visits == [] then [] else Contribution(visits[0], excluded) + Listed(visits[1..], excluded)
  }

  /** What one visit contributes: its files, unless its directory is excluded on arrival. */
  function Contribution(v: Visit, excluded: set<string>): seq<Located> {
    if IsDirExcluded(v.rel, excluded) then [] else FilesAt(v.rel, v.files)
  }

  /** The walk of a whole tree from its root, flattened to the files it yields. */
  function Scan(root: Node, excluded: set<string>): seq<Located> {
    Listed(Walk(root, ".", excluded), excluded)
  }

  // ----- A reference enumeration: every file of the tree, nothing pruned -----

  function AllFiles(node: Node, raw: string): seq<Located> {
    match node
    case Unlistable(_) => []
    case Dir(_, files, subdirs) => FilesAt(CurrentRel(raw), files) + AllFilesChildren(subdirs, raw)
  }

  function AllFilesChildren(children: seq<Node>, raw: string): seq<Located> {
    if children == [] then []
    else AllFiles(children[0], RawJoin(raw, children[0].name)) + AllFilesChildren(children[1..], raw)
  }

  /** The located files whose directory the exclusion rule admits, in their original order. */
  function Admitted(located: seq<Located>, excluded: set<string>): seq<Located> {
    if located == [] then []
    else
      (if IsDirExcluded(located[0].dir, excluded) then [] else [located[0]])
      + Admitted(located[1..], excluded)
  }

  /** Every directory and file name in the tree is one `Join` keeps apart (see `WellNamed`). */
  predicate WellNamedTree(node: Node) {
    match node
    case Unlistable(_) => true
    case Dir(_, files, subdirs) =>
      && (forall i :: 0 <= i < |files| ==> WellNamed(files[i].name))
      && WellNamedForest(subdirs)
  }

  predicate WellNamedForest(children: seq<Node>) {
    forall i :: 0 <= i < |children| ==> WellNamed(children[i].name) && WellNamedTree(children[i])
  }

  lemma ForestTail(children: seq<Node>)
    requires WellNamedForest(children) && children != []
    ensures WellNamedForest(children[1..]) && WellNamed(children[0].name) && WellNamedTree(children[0])
  {
    assert forall i :: 0 <= i < |children| - 1 ==> children[1..][i] == children[i + 1];
  }

  /** A relpath the walk can produce in a well-named tree. */
  predicate ValidRaw(raw: string) {
    raw == "." || (IsNormal(raw) && raw != [] && raw != ".")
  }

  // ----- Lemmas -----

  lemma {:induction false} ListedAppend(a: seq<Visit>, b: seq<Visit>, excluded: set<string>)
    ensures Listed(a + b, excluded) == Listed(a, excluded) + Listed(b, excluded)
  {
    if a == [] {
      assert a + b == b;
    } else {
      assert (a + b)[1..] == a[1..] + b;
      ListedAppend(a[1..], b, excluded);
    }
  }

  /** Walking two runs of sibling subdirectories walks the first run, then the second. */
  lemma {:induction false} WalkChildrenConcat(a: seq<Node>, b: seq<Node>, raw: string, current: string, excluded: set<string>)
    ensures WalkChildren(a + b, raw, current, excluded)
      == WalkChildren(a, raw, current, excluded) + WalkChildren(b, raw, current, excluded)
    decreases |a|
  {
    if a == [] {
      assert a + b == b;
    } else {
      assert (a + b)[0] == a[0];
      assert (a + b)[1..] == a[1..] + b;
      WalkChildrenConcat(a[1..], b, raw, current, excluded);
    }
  }

  /**
   * One subdirectory: pruned, it contributes no visit at all; kept, it
   * contributes its whole walk from its own relpath.
   */
  lemma WalkChildPruned(child: Node, raw: string, current: string, excluded: set<string>)
    ensures IsDirExcluded(ChildPath(current, child.name), excluded) ==>
      WalkChildren([child], raw, current, excluded) == []
    ensures !IsDirExcluded(ChildPath(current, child.name), excluded) ==>
      WalkChildren([child], raw, current, excluded) == Walk(child, RawJoin(raw, child.name), excluded)
  {
    assert [child][1..] == [];
  }

  lemma {:induction false} AdmittedAppend(a: seq<Located>, b: seq<Located>, excluded: set<string>)
    ensures Admitted(a + b, excluded) == Admitted(a, excluded) + Admitted(b, excluded)
  {
    if a != [] {
      var here := if IsDirExcluded(a[0].dir, excluded) then [] else [a[0]];
      assert (a + b)[0] == a[0];
      assert (a + b)[1..] == a[1..] + b;
      AdmittedAppend(a[1..], b, excluded);
      assert Admitted(a + b, excluded) == here + (Admitted(a[1..], excluded) + Admitted(b, excluded));
      assert Admitted(a, excluded) == here + Admitted(a[1..], excluded);
    } else {
      assert a + b == b;
    }
  }

  lemma {:induction false} AdmittedSubset(located: seq<Located>, excluded: set<string>, l: Located)
    requires l in Admitted(located, excluded)
    ensures l in located && !IsDirExcluded(l.dir, excluded)
  {
    if l != located[0] || IsDirExcluded(located[0].dir, excluded) {
      AdmittedSubset(located[1..], excluded, l);
    }
  }

  /** All files of one directory share its fate under the exclusion rule. */
  lemma {:induction false} AdmittedFilesAt(dir: string, files: seq<FileEntry>, excluded: set<string>)
    ensures Admitted(FilesAt(dir, files), excluded) == if IsDirExcluded(dir, excluded) then [] else FilesAt(dir, files)
  {
    if files != [] {
      AdmittedFilesAt(dir, files[1..], excluded);
    }
  }

  /**
   * In a well-named tree the path a parent tests a subdirectory against
   * is exactly the path the walk computes for it on arrival.
   */
  lemma ChildPathAgrees(raw: string, name: string)
    requires ValidRaw(raw) && WellNamed(name)
    ensures ValidRaw(RawJoin(raw, name))
    ensures ChildPath(CurrentRel(raw), name) == CurrentRel(RawJoin(raw, name))
    ensures CurrentRel(RawJoin(raw, name)) == Join(CurrentRel(raw), name)
  {
    if raw == "." {
      NormalizeFixedPoint(raw);
      assert CurrentRel(raw) == "";
      JoinIsNormal("", name);
      assert RawJoin(raw, name) == name;
    } else {
      NormalizeFixedPoint(raw);
      assert CurrentRel(raw) == raw;
      JoinIsNormal(raw, name);
      assert RawJoin(raw, name) == Join(raw, name);
    }
  }

  /** Below an excluded directory every directory is excluded, so no file there is admitted. */
  lemma {:induction false} ExcludedSubtree(node: Node, raw: string, excluded: set<string>)
    requires WellNamedTree(node) && ValidRaw(raw) && IsDirExcluded(CurrentRel(raw), excluded)
    ensures Admitted(AllFiles(node, raw), excluded) == []
    decreases node
  {
    match node
    case Unlistable(_) =>
    case Dir(_, files, subdirs) =>
      AdmittedAppend(FilesAt(CurrentRel(raw), files), AllFilesChildren(subdirs, raw), excluded);
      AdmittedFilesAt(CurrentRel(raw), files, excluded);
      ExcludedChildren(subdirs, raw, excluded);
  }

  lemma {:induction false} ExcludedChildren(children: seq<Node>, raw: string, excluded: set<string>)
    requires WellNamedForest(children)
    requires ValidRaw(raw) && IsDirExcluded(CurrentRel(raw), excluded)
    ensures Admitted(AllFilesChildren(children, raw), excluded) == []
    decreases children
  {
    if children != [] {
      var current := CurrentRel(raw);
      var child := children[0];
      var childRaw := RawJoin(raw, child.name);
      ChildPathAgrees(raw, child.name);
      assert current != [];
      assert CurrentRel(childRaw) == current + "/" + child.name;
      ExclusionClosedUnderDescent(current, child.name, excluded);
      assert WellNamedTree(child);
      ExcludedSubtree(child, childRaw, excluded);
      ForestTail(children);
      ExcludedChildren(children[1..], raw, excluded);
      AdmittedAppend(AllFiles(child, childRaw), AllFilesChildren(children[1..], raw), excluded);
    }
  }

  /**
   * From an admitted directory of a well-named tree, the walk yields
   * exactly the admitted files of the full tree, in the same order.
   */
  lemma {:induction false} WalkAdmits(node: Node, raw: string, excluded: set<string>)
    requires WellNamedTree(node) && ValidRaw(raw) && !IsDirExcluded(CurrentRel(raw), excluded)
    ensures Listed(Walk(node, raw, excluded), excluded) == Admitted(AllFiles(node, raw), excluded)
    decreases node
  {
    match node
    case Unlistable(_) =>
    case Dir(_, files, subdirs) =>
      var current := CurrentRel(raw);
      var head := [Visit(current, files)];
      var tail := WalkChildren(subdirs, raw, current, excluded);
      ListedAppend(head, tail, excluded);
      assert Listed(head, excluded) == FilesAt(current, files);
      AdmittedAppend(FilesAt(current, files), AllFilesChildren(subdirs, raw), excluded);
      AdmittedFilesAt(current, files, excluded);
      WalkChildrenAdmits(subdirs, raw, excluded);
  }

  lemma {:induction false} WalkChildrenAdmits(children: seq<Node>, raw: string, excluded: set<string>)
    requires WellNamedForest(children)
    requires ValidRaw(raw) && !IsDirExcluded(CurrentRel(raw), excluded)
    ensures Listed(WalkChildren(children, raw, CurrentRel(raw), excluded), excluded)
      == Admitted(AllFilesChildren(children, raw), excluded)
    decreases children
  {
    if children != [] {
      var current := CurrentRel(raw);
      var child := children[0];
      var childRaw := RawJoin(raw, child.name);
      var rest := WalkChildren(children[1..], raw, current, excluded);
      ForestTail(children);
      ChildPathAgrees(raw, child.name);
      WalkChildrenAdmits(children[1..], raw, excluded);
      var all := AllFiles(child, childRaw);
      var others := AllFilesChildren(children[1..], raw);
      assert AllFilesChildren(children, raw) == all + others;
      AdmittedAppend(all, others, excluded);
      if IsDirExcluded(ChildPath(current, child.name), excluded) {
        assert WalkChildren(children, raw, current, excluded) == rest;
        ExcludedSubtree(child, childRaw, excluded);
      } else {
        assert WalkChildren(children, raw, current, excluded) == Walk(child, childRaw, excluded) + rest;
        WalkAdmits(child, childRaw, excluded);
        ListedAppend(Walk(child, childRaw, excluded), rest, excluded);
      }
    }
  }

  /** No visit in `visits` is to a directory the exclusion rule matches. */
  predicate NoneExcluded(visits: seq<Visit>, excluded: set<string>) {
    forall i :: 0 <= i < |visits| ==> !IsDirExcluded(visits[i].rel, excluded)
  }

  lemma NoneExcludedAppend(a: seq<Visit>, b: seq<Visit>, excluded: set<string>)
    requires NoneExcluded(a, excluded) && NoneExcluded(b, excluded)
    ensures NoneExcluded(a + b, excluded)
  {
    forall i | 0 <= i < |a + b| ensures !IsDirExcluded((a + b)[i].rel, excluded) {
      if i >= |a| {
        assert (a + b)[i] == b[i - |a|];
      }
    }
  }

  /** From an admitted directory of a well-named tree, the walk only ever visits admitted directories. */
  lemma {:induction false} WalkVisitsAdmitted(node: Node, raw: string, excluded: set<string>)
    requires WellNamedTree(node) && ValidRaw(raw) && !IsDirExcluded(CurrentRel(raw), excluded)
    ensures NoneExcluded(Walk(node, raw, excluded), excluded)
    decreases node
  {
    match node
    case Unlistable(_) =>
    case Dir(_, files, subdirs) =>
      var current := CurrentRel(raw);
      WalkChildrenVisitsAdmitted(subdirs, raw, excluded);
      NoneExcludedAppend([Visit(current, files)], WalkChildren(subdirs, raw, current, excluded), excluded);
  }

  lemma {:induction false} WalkChildrenVisitsAdmitted(children: seq<Node>, raw: string, excluded: set<string>)
    requires WellNamedForest(children)
    requires ValidRaw(raw) && !IsDirExcluded(CurrentRel(raw), excluded)
    ensures NoneExcluded(WalkChildren(children, raw, CurrentRel(raw), excluded), excluded)
    decreases children
  {
    if children != [] {
      var current := CurrentRel(raw);
      var child := children[0];
      var childRaw := RawJoin(raw, child.name);
      var rest := WalkChildren(children[1..], raw, current, excluded);
      WalkChildrenVisitsAdmitted(children[1..], raw, excluded);
      if !IsDirExcluded(ChildPath(current, child.name), excluded) {
        ChildPathAgrees(raw, child.name);
        WalkVisitsAdmitted(child, childRaw, excluded);
        NoneExcludedAppend(Walk(child, childRaw, excluded), rest, excluded);
      }
    }
  }

  /**
   * Pruning, whole-tree form: for a well-named tree the walk yields
   * exactly the files whose directory is not excluded, in walk order;
   * with nothing excluded that is every file.
   */
  lemma ScanIsAdmittedFiles(root: Node, excluded: set<string>)
    requires WellNamedTree(root)
    ensures Scan(root, excluded) == Admitted(AllFiles(root, "."), excluded)
    ensures excluded == {} ==> Scan(root, excluded) == AllFiles(root, ".")
  {
    WalkAdmits(root, ".", excluded);
    if excluded == {} {
      AdmitAll(AllFiles(root, "."), excluded);
    }
  }

  lemma {:induction false} AdmitAll(located: seq<Located>, excluded: set<string>)
    requires excluded == {}
    ensures Admitted(located, excluded) == located
  {
    if located != [] {
      AdmitAll(located[1..], excluded);
    }
  }

  /**
   * The arrival check never fires in a well-named tree: the root `""`
   * matches no non-empty entry, and every other directory was admitted by
   * its parent against the same path.
   */
  lemma RecheckNeverFires(root: Node, excluded: set<string>)
    requires WellNamedTree(root)
    ensures forall i :: 0 <= i < |Walk(root, ".", excluded)| ==> !IsDirExcluded(Walk(root, ".", excluded)[i].rel, excluded)
  {
    WalkVisitsAdmitted(root, ".", excluded);
  }

  /**
   * No file the walk yields in a well-named tree lies in an excluded
   * directory or anywhere below one.
   */
  lemma ScanAvoidsExcludedDirs(root: Node, excluded: set<string>, i: nat, e: string)
    requires WellNamedTree(root)
    requires i < |Scan(root, excluded)| && e in excluded && e != []
    ensures !StartsWith(Scan(root, excluded)[i].path, e + "/")
  {
    ScanIsAdmittedFiles(root, excluded);
    var l := Scan(root, excluded)[i];
    AdmittedSubset(AllFiles(root, "."), excluded, l);
    AllFilesWellNamed(root, ".", l);
    LocatedPathOutside(l.dir, l.file.name, e, excluded);
  }

  /** Every file of a well-named tree has a well-named name and sits at the plain join of its directory. */
  lemma {:induction false} AllFilesWellNamed(node: Node, raw: string, l: Located)
    requires WellNamedTree(node) && ValidRaw(raw) && l in AllFiles(node, raw)
    ensures WellNamed(l.file.name) && IsNormal(l.dir)
    ensures l.path == Join(l.dir, l.file.name)
    decreases node
  {
    match node
    case Unlistable(_) =>
    case Dir(_, files, subdirs) =>
      if l in FilesAt(CurrentRel(raw), files) {
        var k :| 0 <= k < |files| && FilesAt(CurrentRel(raw), files)[k] == l;
        JoinIsNormal(CurrentRel(raw), files[k].name);
      } else {
        AllFilesChildrenWellNamed(subdirs, raw, l);
      }
  }

  lemma {:induction false} AllFilesChildrenWellNamed(children: seq<Node>, raw: string, l: Located)
    requires WellNamedForest(children)
    requires ValidRaw(raw) && l in AllFilesChildren(children, raw)
    ensures WellNamed(l.file.name) && IsNormal(l.dir)
    ensures l.path == Join(l.dir, l.file.name)
    decreases children
  {
    var child := children[0];
    var childRaw := RawJoin(raw, child.name);
    ForestTail(children);
    ChildPathAgrees(raw, child.name);
    assert AllFilesChildren(children, raw) == AllFiles(child, childRaw) + AllFilesChildren(children[1..], raw);
    if l in AllFiles(child, childRaw) {
      AllFilesWellNamed(child, childRaw, l);
    } else {
      AllFilesChildrenWellNamed(children[1..], raw, l);
    }
  }

  /** Joining a normal directory path and a well-named name gives a normal path. */
  lemma JoinNormal(dir: string, name: string)
    requires IsNormal(dir) && WellNamed(name)
    ensures IsNormal(Join(dir, name)) && Join(dir, name) != [] && Join(dir, name) != "."
  {
    var j := Join(dir, name);
    if dir != [] {
      assert j == dir + "/" + name;
      assert j[0] == dir[0] && j[|j| - 1] == name[|name| - 1];
      assert '\\' !in j by {
        forall k | 0 <= k < |j| ensures j[k] != '\\' {
          if k < |dir| { assert j[k] == dir[k]; }
          else if k > |dir| { assert j[k] == name[k - |dir| - 1]; }
        }
      }
    }
  }

  /** Joining a normal directory path and a well-named name needs no normalising. */
  lemma JoinIsNormal(dir: string, name: string)
    requires IsNormal(dir) && WellNamed(name)
    ensures Normalize(Join(dir, name)) == Join(dir, name)
    ensures IsNormal(Join(dir, name)) && Join(dir, name) != [] && Join(dir, name) != "."
  {
    JoinNormal(dir, name);
    NormalizeFixedPoint(Join(dir, name));
  }

  lemma PathBelowMeansDirBelow(dir: string, name: string, e: string)
    requires WellNamed(name) && e != []
    ensures StartsWith(Join(dir, name), e + "/") ==> dir == e || StartsWith(dir, e + "/")
  {
    var p := Join(dir, name);
    var m := |e|;
    if StartsWith(p, e + "/") {
      assert p[m] == (e + "/")[m] == '/';
      assert dir == [] ==> p == name;
      assert dir != [];
      assert forall k :: |dir| + 1 <= k < |p| ==> p[k] == name[k - |dir| - 1] != '/';
      assert |dir| >= m;
      if |dir| == m {
        assert dir == p[..m] == (e + "/")[..m] == e;
      } else {
        assert dir[..m + 1] == p[..m + 1];
      }
    }
  }

  /** A file path below `e` means the file's directory is `e` or below it. */
  lemma LocatedPathOutside(dir: string, name: string, e: string, excluded: set<string>)
    requires WellNamed(name) && e in excluded && e != []
    requires !IsDirExcluded(dir, excluded)
    ensures !StartsWith(Join(dir, name), e + "/")
  {
    PathBelowMeansDirBelow(dir, name, e);
    assert (dir == e || StartsWith(dir, e + "/")) ==> IsDirExcluded(dir, excluded);
  }

  /**
   * Outside well-named trees the arrival check does matter: on a system
   * where `\` may appear in a name, a directory `a\` is tested as `a`,
   * its subdirectory `b` is tested as `a/b`, but on arrival `b`'s path is
   * `a//b`, which the entry `a//b` excludes. The file inside is dropped by
   * the arrival check although the pruning check admitted its directory.
   */
  lemma RecheckFiresOnBackslashName(x: FileEntry)
    ensures !IsDirExcluded(ChildPath("", "a\\"), {"a//b"})
    ensures !IsDirExcluded(ChildPath(CurrentRel("a\\"), "b"), {"a//b"})
    ensures Walk(BackslashTree(x), ".", {"a//b"}) == [Visit("", []), Visit("a", []), Visit("a//b", [x])]
    ensures IsDirExcluded("a//b", {"a//b"})
    ensures Scan(BackslashTree(x), {"a//b"}) == []
  {
    BackslashChild();
    BackslashCurrent();
    PlainChild();
    DoubledSlashExclusion();
    WalkBackslashTree(x);
    var w := Walk(BackslashTree(x), ".", {"a//b"});
    ListedBackslashTree(x, w);
  }

  /**
   * Outside well-named trees a file name can escape the exclusion rule
   * too: a file named `x\y` in the root is exported as `x/y`, a path
   * below the excluded directory `x`, because only its directory (the
   * root) is ever tested.
   */
  lemma BackslashFileEscapesExclusion(f: FileEntry, excluded: set<string>)
    requires f.name == "x\\y" && "x" in excluded
    ensures Scan(Dir("", [f], []), excluded) == [Located("", "x/y", f)]
    ensures IsDirExcluded("x", excluded) && StartsWith("x/y", "x" + "/")
  {
    assert Scan(Dir("", [f], []), excluded) == Listed([Visit("", [f])], excluded) by {
      WalkLeaf(f, excluded);
    }
    assert Listed([Visit("", [f])], excluded) == [Located("", "x/y", f)] by {
      ListedRootFile(f, excluded);
    }
    assert IsDirExcluded("x", excluded) && StartsWith("x/y", "x" + "/") by {
      BelowX(excluded);
    }
  }

  lemma BelowX(excluded: set<string>)
    requires "x" in excluded
    ensures IsDirExcluded("x", excluded) && StartsWith("x/y", "x" + "/")
  {
    assert "x/y"[..2] == "x" + "/";
  }

  lemma WalkLeaf(f: FileEntry, excluded: set<string>)
    ensures Walk(Dir("", [f], []), ".", excluded) == [Visit("", [f])]
  {
    RootPath();
    assert WalkChildren([], ".", "", excluded) == [];
  }

  lemma ListedRootFile(f: FileEntry, excluded: set<string>)
    requires f.name == "x\\y"
    ensures Listed([Visit("", [f])], excluded) == [Located("", "x/y", f)]
  {
    BackslashFileName();
    assert Listed([], excluded) == [];
    assert FilesAt("", [f])[0] == Located("", "x/y", f);
  }

  lemma BackslashFileName()
    ensures Normalize(Join("", "x\\y")) == "x/y"
  {
    assert Replace("x\\y", '\\', '/') == "x/y";
    assert TrimLeft("x/y", IsSlash) == "x/y";
    assert TrimRight("x/y", IsSlash) == "x/y";
  }

  /**
   * Outside well-named trees pruning and the full enumeration part ways:
   * with `a/b` excluded, the walk prunes `b` inside the directory `a\`
   * (tested as `a/b`), while the full enumeration puts `b`'s file at
   * `a//b`, which the exclusion rule admits.
   */
  lemma PruningHidesBackslashSubtree(x: FileEntry)
    ensures Scan(BackslashTree(x), {"a/b"}) == []
    ensures Admitted(AllFiles(BackslashTree(x), "."), {"a/b"}) == FilesAt("a//b", [x])
    ensures |FilesAt("a//b", [x])| == 1
  {
    assert Walk(BackslashTree(x), ".", {"a/b"}) == [Visit("", []), Visit("a", [])] by {
      PrunedBackslashWalk(x);
    }
    assert Listed([Visit("", []), Visit("a", [])], {"a/b"}) == [] by {
      EmptyVisitsListed();
    }
    assert AllFiles(BackslashTree(x), ".") == FilesAt("a//b", [x]) by {
      AllFilesBackslashTree(x);
    }
    assert !IsDirExcluded("a//b", {"a/b"}) by {
      DoubledSlashAdmitted();
    }
    AdmittedFilesAt("a//b", [x], {"a/b"});
  }

  lemma DoubledSlashAdmitted()
    ensures !IsDirExcluded("a//b", {"a/b"})
  {
    assert |"a//b"| != |"a/b"|;
    assert "a//b"[..4][2] != ("a/b" + "/")[2];
  }

  lemma EmptyVisitsListed()
    ensures Listed([Visit("", []), Visit("a", [])], {"a/b"}) == []
  {
    assert [Visit("", []), Visit("a", [])][1..] == [Visit("a", [])];
    assert Listed([Visit("a", [])], {"a/b"}) == [] by {
      assert Listed([], {"a/b"}) == [];
    }
  }

  lemma PrunedBackslashWalk(x: FileEntry)
    ensures Walk(BackslashTree(x), ".", {"a/b"}) == [Visit("", []), Visit("a", [])]
  {
    assert WalkChildren([Dir("a\\", [], [Dir("b", [x], [])])], ".", "", {"a/b"}) == [Visit("a", [])] by {
      PrunedRootChildren(x);
    }
    RootPath();
  }

  lemma PrunedRootChildren(x: FileEntry)
    ensures WalkChildren([Dir("a\\", [], [Dir("b", [x], [])])], ".", "", {"a/b"}) == [Visit("a", [])]
  {
    var excluded := {"a/b"};
    var a := Dir("a\\", [], [Dir("b", [x], [])]);
    assert Walk(a, "a\\", excluded) == [Visit("a", [])] by {
      PrunedInnerDir(x);
    }
    assert !IsDirExcluded(ChildPath("", a.name), excluded) by {
      BackslashChild();
      assert !StartsWith("a", "a/b" + "/");
    }
    assert [a][1..] == [];
    assert WalkChildren([], ".", "", excluded) == [];
  }

  lemma PrunedInnerDir(x: FileEntry)
    ensures Walk(Dir("a\\", [], [Dir("b", [x], [])]), "a\\", {"a/b"}) == [Visit("a", [])]
  {
    var b := Dir("b", [x], []);
    BackslashCurrent();
    PlainChild();
    assert IsDirExcluded("a/b", {"a/b"});
    assert [b][1..] == [];
    assert WalkChildren([], "a\\", "a", {"a/b"}) == [];
  }

  lemma AllFilesBackslashTree(x: FileEntry)
    ensures AllFiles(BackslashTree(x), ".") == FilesAt("a//b", [x])
  {
    var a := Dir("a\\", [], [Dir("b", [x], [])]);
    assert AllFiles(a, "a\\") == FilesAt("a//b", [x]) by {
      AllFilesBackslashDir(x);
    }
    assert AllFilesChildren([a], ".") == FilesAt("a//b", [x]) by {
      assert [a][1..] == [];
      assert AllFilesChildren([], ".") == [];
    }
    RootPath();
  }

  lemma AllFilesBackslashDir(x: FileEntry)
    ensures AllFiles(Dir("a\\", [], [Dir("b", [x], [])]), "a\\") == FilesAt("a//b", [x])
  {
    var b := Dir("b", [x], []);
    assert AllFilesChildren([b], "a\\") == FilesAt("a//b", [x]) by {
      AllFilesInnerDir(x);
    }
    assert FilesAt(CurrentRel("a\\"), []) == [];
  }

  lemma AllFilesInnerDir(x: FileEntry)
    ensures AllFilesChildren([Dir("b", [x], [])], "a\\") == FilesAt("a//b", [x])
  {
    var b := Dir("b", [x], []);
    DoubledSlashCurrent();
    assert AllFiles(b, "a\\/b") == FilesAt("a//b", [x]) by {
      assert AllFilesChildren([], "a\\/b") == [];
    }
    assert [b][1..] == [];
    assert AllFilesChildren([], "a\\") == [];
  }

  lemma WalkBackslashTree(x: FileEntry)
    ensures Walk(BackslashTree(x), ".", {"a//b"}) == [Visit("", []), Visit("a", []), Visit("a//b", [x])]
  {
    var excluded := {"a//b"};
    var a := Dir("a\\", [], [Dir("b", [x], [])]);
    var kids := [a];
    assert kids[0] == a && kids[1..] == [];
    var wa := Walk(a, "a\\", excluded);
    assert wa == [Visit("a", []), Visit("a//b", [x])] by {
      WalkBackslashDir(x);
    }
    assert !IsDirExcluded(ChildPath("", kids[0].name), excluded) by {
      BackslashChild();
      DoubledSlashExclusion();
    }
    assert WalkChildren(kids, ".", "", excluded) == wa by {
      assert RawJoin(".", kids[0].name) == "a\\";
      assert WalkChildren([], ".", "", excluded) == [];
    }
    assert Walk(BackslashTree(x), ".", excluded) == [Visit("", [])] + wa by {
      RootPath();
    }
  }

  lemma WalkBackslashDir(x: FileEntry)
    ensures Walk(Dir("a\\", [], [Dir("b", [x], [])]), "a\\", {"a//b"}) == [Visit("a", []), Visit("a//b", [x])]
  {
    var excluded := {"a//b"};
    var b := Dir("b", [x], []);
    var kids := [b];
    assert kids[0] == b && kids[1..] == [];
    var wb := Walk(b, "a\\/b", excluded);
    assert wb == [Visit("a//b", [x])] by {
      WalkInnerDir(x);
    }
    assert !IsDirExcluded(ChildPath("a", kids[0].name), excluded) by {
      PlainChild();
      DoubledSlashExclusion();
    }
    assert WalkChildren(kids, "a\\", "a", excluded) == wb by {
      DoubledSlashCurrent();
      assert RawJoin("a\\", kids[0].name) == "a\\/b";
      assert WalkChildren([], "a\\", "a", excluded) == [];
    }
    assert Walk(Dir("a\\", [], kids), "a\\", excluded) == [Visit("a", [])] + wb by {
      BackslashCurrent();
    }
  }

  lemma WalkInnerDir(x: FileEntry)
    ensures Walk(Dir("b", [x], []), "a\\/b", {"a//b"}) == [Visit("a//b", [x])]
  {
    DoubledSlashCurrent();
    assert WalkChildren([], "a\\/b", "a//b", {"a//b"}) == [];
  }

  lemma ListedBackslashTree(x: FileEntry, w: seq<Visit>)
    requires w == [Visit("", []), Visit("a", []), Visit("a//b", [x])]
    ensures Listed(w, {"a//b"}) == []
  {
    DoubledSlashExclusion();
    assert Listed(w[2..], {"a//b"}) == [];
    assert Listed(w[1..], {"a//b"}) == [];
  }

  /** A root holding a directory `a\` that holds a directory `b` that holds `x`. */
  function BackslashTree(x: FileEntry): Node {
    Dir("", [], [Dir("a\\", [], [Dir("b", [x], [])])])
  }

  lemma RootPath()
    ensures CurrentRel(".") == ""
  {
    assert Replace(".", '\\', '/') == ".";
  }

  lemma BackslashChild()
    ensures ChildPath("", "a\\") == "a"
  {
    assert Replace("a\\", '\\', '/') == "a/";
    assert TrimLeft("a/", IsSlash) == "a/";
    assert TrimRight("a/", IsSlash) == "a";
  }

  lemma BackslashCurrent()
    ensures CurrentRel("a\\") == "a"
  {
    BackslashChild();
  }

  lemma PlainChild()
    ensures ChildPath("a", "b") == "a/b"
  {
    assert Join("a", "b") == "a/b";
    assert Replace("a/b", '\\', '/') == "a/b";
    assert TrimLeft("a/b", IsSlash) == "a/b";
    assert TrimRight("a/b", IsSlash) == "a/b";
  }

  lemma DoubledSlashCurrent()
    ensures RawJoin("a\\", "b") == "a\\/b"
    ensures CurrentRel("a\\/b") == "a//b"
  {
    assert Replace("a\\/b", '\\', '/') == "a//b";
    assert TrimLeft("a//b", IsSlash) == "a//b";
    assert TrimRight("a//b", IsSlash) == "a//b";
  }

  lemma DoubledSlashExclusion()
    ensures !IsDirExcluded("", {"a//b"})
    ensures !IsDirExcluded("a", {"a//b"})
    ensures !IsDirExcluded("a/b", {"a//b"})
    ensures IsDirExcluded("a//b", {"a//b"})
  {
    assert "a/b" != "a//b";
    assert !StartsWith("a/b", "a//b" + "/");
  }
}
